=== FILE: README.md ===
# Verified model of a NestJS/Prisma SaaS boilerplate core

This project is a Dafny model of four pieces of logic in a NestJS/Prisma SaaS boilerplate:

- **Refresh-token lifecycle.** Issuing, rotating and revoking refresh tokens (`AuthService`). An hourly job sweeps expired tokens (`CleanupProcessor`).
- **Cache-aside user store.** A users table sits behind a key/value cache (`UsersService`, `CacheService`). The cache keys come from fixed builders (`cache.constants`).
- **Organizations.** These cover membership and invitations (`OrganizationsService`). A route guard decides who may act on an organization (`OrganizationGuard`). Create and update request bodies are validated.
- **Shared helpers.** `truncate`, `capitalize` and `isValidEmail`.

Each database table is an immutable map. Every unique index of the schema is a second map: user e-mail, organization slug, membership `(userId, organizationId)` and invite token. The `Valid` predicates say the index maps agree with the tables.

The cache is one map with two flags:
- `available` is false while the cache server is down. During an outage every cache call fails inside the service, and the service swallows the error. A read then misses and a write does nothing.
- `listsKeys` says whether the store can enumerate its keys, which `delByPrefix` needs.

Time is an integer number of seconds, and N days is N·86400 seconds. The following are parameters of the operations that use them:
- random tokens and new row ids;
- the password hash and hash comparison;
- the access-token signer.

An operation that can change state and still fail returns `Step(next, result)`. The expired-invite and expired-token branches do this.

Two behaviours of the code are worth knowing:
- **Token expiry.** The code rejects a refresh token only when `expiresAt < now`. A token whose `expiresAt` equals the current time is still accepted.
- **Logout during a cache outage.** Logout revokes a token only while the cache is reachable. The blacklist write is swallowed during an outage. The token then survives when the durable record belongs to a different user (`TokenLifecycle.LogoutRevokes`).

Modules, one per source file plus two for cross-operation properties:
- `Outcomes` holds `Option`, `Result`, `Error` and `Step`.
- `Text` holds string prefixes and JavaScript white space.
- `JsNumbers` models `parseInt`, returning NaN or an integer.
- `CacheKeys`, `CacheService`, `UsersService` and `UserCacheCoherence` cover the user store.
- `AuthService`, `CleanupProcessor` and `TokenLifecycle` cover tokens.
- `OrganizationsService`, `OrganizationInvariants`, `OrganizationGuard` and `OrganizationDtos` cover organizations.
- `SharedUtils` holds the helpers.

## Model

| member | source | states |
|---|---|---|
| CacheKeys.UserKey | apps/api/src/cache/cache.constants.ts:19-21 | the user key is "user:" followed by the id |
| CacheKeys.EmailKey | apps/api/src/cache/cache.constants.ts:23-25 | the e-mail key is "user:email:" followed by the address |
| CacheKeys.RefreshKey | apps/api/src/cache/cache.constants.ts:27-29 | the blacklist key is "refresh_token:" followed by the token |
| CacheKeys.SessionKey | apps/api/src/cache/cache.constants.ts:31-33 | the session key is "session:" followed by the session id |
| CacheKeys.KeyBuildersInjective | apps/api/src/cache/cache.constants.ts:19-33 | each key builder is injective in its argument |
| CacheKeys.NamespacesDisjoint | apps/api/src/cache/cache.constants.ts:2-7 | refresh-token and session keys never equal each other, a user key or an e-mail key |
| CacheKeys.UserNamespacesOverlap | apps/api/src/cache/cache.constants.ts:3-4 | the user and e-mail namespaces overlap: the id key of "email:"+e is the e-mail key of e |
| CacheKeys.ColonFreeIdKeyIsNotEmailKey | apps/api/src/cache/cache.constants.ts:19-25 | an id without a colon never has the same key as an e-mail address |
| CacheKeys.RefreshTokenTtlIsSevenDays | apps/api/src/cache/cache.constants.ts:13 | the blacklist lifetime of 604800 s is exactly 7 days |
| CacheService.Get | apps/api/src/cache/cache.service.ts:15-28 | the stored value on a hit; undefined on a miss or while the cache is down |
| CacheService.Set | apps/api/src/cache/cache.service.ts:33-40 | stores the value under the given ttl, or 300 000 ms when none is given; only that key changes; nothing changes while the cache is down |
| CacheService.Del | apps/api/src/cache/cache.service.ts:45-52 | removes only that key; nothing changes while the cache is down |
| CacheService.DelByPrefix | apps/api/src/cache/cache.service.ts:57-70 | removes exactly the keys starting with the prefix when the store lists keys; otherwise a no-op; surviving entries keep their values |
| CacheService.Reset | apps/api/src/cache/cache.service.ts:95-102 | afterwards every lookup misses; nothing changes while the cache is down |
| CacheService.GetOrSet | apps/api/src/cache/cache.service.ts:75-90 | a hit is returned without calling the factory; on a miss the factory's result is returned and cached only when it is neither null nor undefined |
| CacheService.SetEach | apps/api/src/modules/auth/auth.service.ts:160-168 | a batch of independent sets leaves every batched key holding the value with the given ttl and every other entry as it was; nothing changes while the cache is down |
| CacheService.SetEachIsSequentialSets | apps/api/src/modules/auth/auth.service.ts:160-168 | the concurrent batch equals the same writes issued one after another, in any order |
| CacheService.GetOrSetThenHit | apps/api/src/cache/cache.service.ts:75-90 | after a miss that cached a value, the next call hits and does not call the factory |
| UsersService.FindByEmailWithPassword | apps/api/src/modules/users/users.service.ts:167-171 | finds a row exactly when some row has the address, and returns that row with its password hash; never touches the cache |
| UsersService.Create | apps/api/src/modules/users/users.service.ts:31-74 | Conflict exactly when the e-mail is taken; otherwise inserts the row with the hashed password, role USER by default and active, and, while the cache is reachable, caches the password-free user under both keys; no other cache entry changes, and the cache is unchanged during an outage |
| UsersService.FindById | apps/api/src/modules/users/users.service.ts:96-127 | a truthy cache hit is returned without reading the table; on a miss an absent user is NotFound and a present one is cached and returned |
| UsersService.FindByEmail | apps/api/src/modules/users/users.service.ts:132-161 | as for the id lookup, but an unknown address gives null and writes nothing to the cache |
| UsersService.Update | apps/api/src/modules/users/users.service.ts:176-213 | NotFound for an absent user; otherwise only name and isActive change, the e-mail and password are kept, and, while the cache is reachable, both keys hold the updated user; no other cache entry changes, and the cache is unchanged during an outage |
| UsersService.Delete | apps/api/src/modules/users/users.service.ts:218-232 | NotFound for an absent user; otherwise removes the row, frees the address and, while the cache is reachable, clears both cache keys; no other cache entry changes, and the cache is unchanged during an outage |
| UserCacheCoherence.FindByIdAgreesWithTable | apps/api/src/modules/users/users.service.ts:96-127 | with a coherent cache the id lookup answers what the table holds and keeps the cache coherent |
| UserCacheCoherence.FindByEmailAgreesWithTable | apps/api/src/modules/users/users.service.ts:132-161 | with a coherent cache the e-mail lookup answers what the table holds and keeps the cache coherent |
| UserCacheCoherence.CreateKeepsCacheCoherent | apps/api/src/modules/users/users.service.ts:42-70 | creating a user keeps every cached user entry equal to the current row |
| UserCacheCoherence.UpdateKeepsCacheCoherent | apps/api/src/modules/users/users.service.ts:190-209 | updating keeps a reachable cache coherent |
| UserCacheCoherence.DeleteKeepsCacheCoherent | apps/api/src/modules/users/users.service.ts:222-229 | deleting keeps a reachable cache coherent |
| UserCacheCoherence.UpdateDuringOutageServesStaleUser | apps/api/src/cache/cache.service.ts:33-52 | because cache errors are swallowed, an update during an outage leaves the old entry; once the cache is back, the id lookup returns the pre-update user |
| JsNumbers.ParseInt | apps/api/src/modules/auth/auth.service.ts:228 | NaN exactly when, after leading white space, no digit follows either at once or after one sign; a leading '-' gives a value of at most 0, otherwise at least 0. Exact values: ParseIntOfDecimal, ParseIntOfNegativeDecimal, ParseIntOfNonNumeric |
| JsNumbers.DecimalValue | apps/api/src/modules/auth/auth.service.ts:228 | the decimal digits of n read back as n |
| JsNumbers.ParseIntOfDecimal | apps/api/src/modules/auth/auth.service.ts:228 | parseInt of a decimal numeral is its value |
| JsNumbers.ParseIntOfNegativeDecimal | apps/api/src/modules/auth/auth.service.ts:228 | parseInt of "-" followed by a numeral is the negated value |
| JsNumbers.ParseIntOfNonNumeric | apps/api/src/modules/auth/auth.service.ts:228 | text that does not start with a digit after white space and sign is NaN |
| AuthService.ParseExpiryToSeconds | apps/api/src/modules/auth/auth.service.ts:226-242 | an empty string, or one whose last character is not s, m, h or d, gives 900 |
| AuthService.ParseExpiryOfDuration | apps/api/src/modules/auth/auth.service.ts:226-242 | "Ns", "Nm", "Nh" and "Nd" read as N, 60N, 3600N and 86400N seconds |
| AuthService.DefaultAccessExpiryIs900Seconds | apps/api/src/modules/auth/auth.service.ts:184-187 | the default access expiry "15m" is 900 seconds |
| AuthService.ParseExpiryEdgeCases | apps/api/src/modules/auth/auth.service.ts:226-242 | "15" with no unit gives 900 and "m" with no number gives NaN |
| AuthService.GenerateTokens | apps/api/src/modules/auth/auth.service.ts:179-221 | adds exactly one record for the user, expiring the configured number of days (default 7) from now, and returns that token with the signed claims and the parsed expiry |
| AuthService.RefreshToken | apps/api/src/modules/auth/auth.service.ts:87-128 | in this order: blacklisted gives revoked with nothing changed; unknown gives invalid with nothing changed; expired is deleted and gives expired; an inactive owner gives deactivated and the record is kept. Succeeds exactly when all checks pass, swapping the presented record for one new record of the same owner |
| AuthService.Logout | apps/api/src/modules/auth/auth.service.ts:133-147 | while the cache is reachable, blacklists the token for 7 days whoever owns it; deletes its record only if it belongs to the caller; no other cache entry changes, availability and key listing are kept, and the cache is unchanged during an outage |
| AuthService.LogoutAll | apps/api/src/modules/auth/auth.service.ts:152-174 | blacklists every token the user held and deletes all of the user's records; while the cache is reachable each blacklist entry has the 7-day ttl; other users' records and all other cache entries, ttl included, are untouched; key listing is kept; during an outage the cache, availability included, is unchanged |
| AuthService.Login | apps/api/src/modules/auth/auth.service.ts:60-82 | an unknown e-mail and a wrong password both give "Invalid credentials"; a deactivated account is refused before the password is compared; success issues exactly one new record |
| AuthService.Register | apps/api/src/modules/auth/auth.service.ts:37-55 | refused with Conflict when the e-mail lookup finds a user; a success has created an active USER with the hashed password and issued its first record |
| TokenLifecycle.RefreshIsSingleUse | apps/api/src/modules/auth/auth.service.ts:98-127 | after a successful rotation the same token is refused at any later time and the state is unchanged |
| TokenLifecycle.RotatedTokenWorksUntilExpiry | apps/api/src/modules/auth/auth.service.ts:107-127 | the replacement token is accepted exactly until the configured number of days after the rotation |
| TokenLifecycle.LogoutRevokes | apps/api/src/modules/auth/auth.service.ts:133-147 | with the cache reachable, refresh after logout is refused as revoked and nothing changes; it succeeds only when the cache was down and the record belonged to another user |
| TokenLifecycle.LogoutAllRevokesEveryToken | apps/api/src/modules/auth/auth.service.ts:152-174 | after logout-all, every token the user held is refused: revoked with the cache up, invalid with it down |
| TokenLifecycle.LoginTokenIsRefreshable | apps/api/src/modules/auth/auth.service.ts:60-82 | the refresh token a login issues passes an immediate refresh |
| TokenLifecycle.UserCreateKeepsBlacklist | apps/api/src/modules/users/users.service.ts:60-70 | creating a user never adds or removes a revocation |
| TokenLifecycle.UserLookupsKeepBlacklist | apps/api/src/modules/users/users.service.ts:96-161 | the cache-aside lookups never add or remove a revocation |
| TokenLifecycle.UserUpdateKeepsBlacklist | apps/api/src/modules/users/users.service.ts:197-209 | updating a user never adds or removes a revocation |
| TokenLifecycle.UserDeleteKeepsBlacklist | apps/api/src/modules/users/users.service.ts:226-229 | deleting a user never adds or removes a revocation |
| TokenLifecycle.RegisterConflictsExactlyWhenEmailTaken | apps/api/src/modules/auth/auth.service.ts:37-55 | with a coherent cache, registration is refused exactly when the address is taken |
| CleanupProcessor.HandleExpiredTokens | apps/api/src/jobs/processors/cleanup.processor.ts:18-37 | keeps exactly the records with expiresAt >= now, unchanged, and reports as deletedCount the number removed |
| CleanupProcessor.HandleInactiveSessions | apps/api/src/jobs/processors/cleanup.processor.ts:39-55 | on a reachable, key-listing cache removes exactly the keys starting with "session:" and keeps every other entry with its value and ttl; a store that is down or cannot list keys is left as it was; availability is unchanged |
| CleanupProcessor.SweepKeepsRefreshOutcome | apps/api/src/jobs/processors/cleanup.processor.ts:22-28 | the sweep never changes whether a refresh at the same instant succeeds; it turns "expired" refusals into "invalid" ones |
| OrganizationsService.MembershipIndexExact | apps/api/src/modules/organizations/organizations.service.ts:452-460 | the (user, organization) index finds a membership exactly when one exists |
| OrganizationsService.TokenIndexExact | apps/api/src/modules/organizations/organizations.service.ts:299-304 | the token index finds an invitation exactly when one carries the token |
| OrganizationsService.Create | apps/api/src/modules/organizations/organizations.service.ts:29-69 | Conflict exactly when the slug is taken; otherwise an active organization whose only member is the creator, as OWNER |
| OrganizationsService.Update | apps/api/src/modules/organizations/organizations.service.ts:160-176 | NotFound for an unknown id; otherwise only the fields present change and the slug is kept |
| OrganizationsService.InviteMember | apps/api/src/modules/organizations/organizations.service.ts:219-293 | NotFound for a missing organization, then Conflict if the address is a member's, then Conflict if an invitation is still in force; otherwise one invitation expiring 7 days from now with role MEMBER by default |
| OrganizationsService.NoMemberByEmail | apps/api/src/modules/organizations/organizations.service.ts:233-250 | the user-then-membership lookup misses only when no member of the organization has the address |
| OrganizationsService.AcceptInvite | apps/api/src/modules/organizations/organizations.service.ts:298-349 | NotFound for an unknown token; an expired invitation is deleted and refused; an unknown user is NotFound; a different address is refused with the invitation kept; success adds one membership with the invited role and removes the invitation in one step |
| OrganizationsService.RemoveMember | apps/api/src/modules/organizations/organizations.service.ts:354-388 | NotFound for an unknown member, Forbidden for another organization's member; succeeds exactly when the member is not an OWNER or two or more owners exist |
| OrganizationsService.RemoveMemberIntended | apps/api/src/modules/organizations/organizations.service.ts:366-380 | the removal rule the comment on line 366 states: an OWNER is removed only by that same user and only while another owner remains; every other case as in RemoveMember |
| OrganizationsService.RemoveMemberIntendedIsStricter | apps/api/src/modules/organizations/organizations.service.ts:366-380 | every removal the corrected rule allows, the code allows with the same effect; they differ exactly on an OWNER removed by someone else while another owner remains |
| OrganizationsService.UpdateMemberRole | apps/api/src/modules/organizations/organizations.service.ts:393-446 | same lookup errors; only demoting an OWNER needs another owner; promotions and OWNER to OWNER always succeed |
| OrganizationsService.LeaveOrganization | apps/api/src/modules/organizations/organizations.service.ts:451-484 | NotFound unless the caller is a member; an OWNER can leave only when two or more owners exist; afterwards the caller is no member |
| OrganizationsService.CancelInvite | apps/api/src/modules/organizations/organizations.service.ts:506-522 | NotFound for an unknown invitation, Forbidden for another organization's; otherwise removes it |
| OrganizationsService.InsertByNewest | apps/api/src/modules/organizations/organizations.service.ts:497-499 | inserting into a newest-first list keeps it newest first and adds exactly that invitation |
| OrganizationsService.InsertKeepsIdsDistinct | apps/api/src/modules/organizations/organizations.service.ts:489-501 | inserting an invitation with a new id keeps the ids distinct |
| OrganizationsService.GetPendingInvites | apps/api/src/modules/organizations/organizations.service.ts:489-501 | exactly the organization's invitations with expiresAt > now, each once, newest first |
| OrganizationInvariants.SlugsAreUnique | apps/api/src/modules/organizations/organizations.service.ts:31-37 | no two organizations share a slug |
| OrganizationInvariants.RemoveMemberKeepsInvariants | apps/api/src/modules/organizations/organizations.service.ts:367-383 | removing a member keeps the indexes consistent and never leaves an organization without an owner |
| OrganizationInvariants.RemoveMemberIntendedKeepsInvariants | apps/api/src/modules/organizations/organizations.service.ts:366-383 | the corrected removal also keeps the indexes consistent and never leaves an organization without an owner |
| OrganizationInvariants.UpdateMemberRoleKeepsInvariants | apps/api/src/modules/organizations/organizations.service.ts:411-429 | a role change keeps the indexes consistent and never leaves an organization without an owner |
| OrganizationInvariants.LeaveKeepsInvariants | apps/api/src/modules/organizations/organizations.service.ts:465-481 | leaving keeps the indexes consistent and never leaves an organization without an owner |
| OrganizationInvariants.CreateKeepsInvariants | apps/api/src/modules/organizations/organizations.service.ts:29-69 | creation keeps the indexes consistent and the new organization has an owner |
| OrganizationInvariants.UpdateKeepsInvariants | apps/api/src/modules/organizations/organizations.service.ts:160-176 | an update keeps the indexes and owners and leaves the slug index as it was |
| OrganizationInvariants.InviteMemberKeepsInvariants | apps/api/src/modules/organizations/organizations.service.ts:267-278 | inviting keeps the indexes and owners |
| OrganizationInvariants.AcceptInviteKeepsInvariants | apps/api/src/modules/organizations/organizations.service.ts:306-342 | accepting, or deleting an expired invitation, keeps the indexes and owners |
| OrganizationInvariants.CancelInviteKeepsInvariants | apps/api/src/modules/organizations/organizations.service.ts:506-522 | cancelling keeps the indexes and owners |
| OrganizationInvariants.InviteThenAccept | apps/api/src/modules/organizations/organizations.service.ts:267-342 | the invited user can accept up to and including the expiry instant 7 days later, and joins with the invited role |
| OrganizationInvariants.SecondInviteConflicts | apps/api/src/modules/organizations/organizations.service.ts:252-265 | a second invitation for the same address before the first expires is refused |
| OrganizationInvariants.ExpiryInstantIsInBetween | apps/api/src/modules/organizations/organizations.service.ts:310-313 | at its expiry instant an invitation is still acceptable, yet neither pending nor blocking a new one |
| OrganizationGuard.OrgIdParam | apps/api/src/modules/organizations/guards/organization.guard.ts:23 | organizationId, falling back to id when the former is absent or empty |
| OrganizationGuard.CanActivate | apps/api/src/modules/organizations/guards/organization.guard.ts:20-84 | the checks run in order (user, id, existence, active, membership, role) and the first failure decides the error; allowed exactly when the caller is a member of an active organization in an admitted role; attaches id, name, slug and the membership's role |
| OrganizationGuard.GuardEnforcesRoleList | apps/api/src/modules/organizations/guards/organization.guard.ts:66-73 | behind a non-empty role list only listed roles get through |
| OrganizationGuard.OnlyOwnersChangeRoles | apps/api/src/modules/organizations/organizations.controller.ts:95-97 | the member-role route admits owners only |
| OrganizationGuard.PlainMemberCannotInvite | apps/api/src/modules/organizations/organizations.controller.ts:83-85 | a MEMBER is refused on the invite route with "Required role: OWNER or ADMIN" |
| OrganizationGuard.CreatorPassesGuard | apps/api/src/modules/organizations/organizations.service.ts:40-50 | the creator passes the guard of the new organization, as OWNER, on every route whose role list admits owners or is absent |
| OrganizationGuard.AdminRemovesAnotherOwner | apps/api/src/modules/organizations/organizations.controller.ts:112-121 | with two owners in an active organization, an ADMIN passes the removal route's guard and the code removes an OWNER other than the ADMIN; the corrected rule refuses it |
| OrganizationGuard.LeaverIsRefused | apps/api/src/modules/organizations/guards/organization.guard.ts:56-58 | after leaving, the guard refuses the user |
| OrganizationDtos.CreateViolations | apps/api/src/modules/organizations/dto/create-organization.dto.ts:4-20 | a create body is valid exactly when the name has 2-100 characters, the slug has 2-50 characters from a-z, 0-9 and '-', and any description has at most 500 |
| OrganizationDtos.UpdateViolations | apps/api/src/modules/organizations/dto/update-organization.dto.ts:3-21 | an update body has no slug and no minimum name length; name at most 100, description at most 500 |
| OrganizationDtos.EmptyUpdateIsValid | apps/api/src/modules/organizations/dto/update-organization.dto.ts:3-21 | every field of an update body is optional: an empty body is valid |
| OrganizationDtos.SlugExamples | apps/api/src/modules/organizations/dto/create-organization.dto.ts:9-14 | "acme-2" is a valid slug; "a" (too short) and "Acme" (upper case) are not |
| OrganizationDtos.UpdateNameRuleIsLooser | apps/api/src/modules/organizations/dto/update-organization.dto.ts:4-7 | every name creation accepts an update accepts, and an update accepts the one-character name creation refuses |
| OrganizationDtos.SlugRefusesForeignCharacters | apps/api/src/modules/organizations/dto/create-organization.dto.ts:12-14 | an upper-case letter, '_' or ' ' anywhere makes a slug invalid |
| OrganizationDtos.ValidBodyYieldsValidOrganization | apps/api/src/modules/organizations/dto/update-organization.dto.ts:3-21 | a valid create body yields an organization with a valid name and slug, and later updates keep the slug valid |
| SharedUtils.Truncate | packages/shared-utils/src/index.ts:72-75 | text of at most the given length is unchanged; longer text becomes its first length characters plus "...", with a negative length counting from the end |
| SharedUtils.TruncateIdempotent | packages/shared-utils/src/index.ts:72-75 | with a non-negative length, truncating twice equals truncating once |
| SharedUtils.TruncateEdgeCases | packages/shared-utils/src/index.ts:72-75 | "abcd" cut at 3 grows to "abc..."; a negative length counts from the end; even "" gets "..." with a negative length |
| SharedUtils.Capitalize | packages/shared-utils/src/index.ts:58-60 | length is kept; the first character is the input's first character upper-cased and every later one is the input's character lower-cased, so the result is capitalized |
| SharedUtils.CapitalizeFixesExactlyCapitalized | packages/shared-utils/src/index.ts:58-60 | capitalize leaves a string unchanged exactly when it is already capitalized, and applying it twice equals applying it once |
| SharedUtils.CapitalizeExamples | packages/shared-utils/src/index.ts:58-60 | "" stays "" and "hELLO" becomes "Hello" |
| SharedUtils.IsValidEmail | packages/shared-utils/src/index.ts:50-53 | true exactly when there is no white space, exactly one '@' with text before it, and a '.' with text on both sides after it |
| SharedUtils.IsValidEmailExamples | packages/shared-utils/src/index.ts:50-53 | "a@b.c" is accepted; "a@b.", "a@@b.c", "a b@c.d" and "@b.c" are refused |

## Findings

| source | as written | input that shows it | evidently intended | confidence | as-written member | corrected member |
|---|---|---|---|---|---|---|
| apps/api/src/modules/organizations/organizations.service.ts:366-380 | an OWNER membership can be removed whenever the organization has two or more owners; `removedByUserId` is only logged | an active organization with owners A and B and an ADMIN C: C removes B's membership through the route that admits OWNER and ADMIN (organizations.controller.ts:112-114), and it succeeds | as the comment on line 366 says, an owner is removed only by that owner, and only while another owner remains | not executed; medium, since the comment is explicit but the behaviour may be accepted | OrganizationsService.RemoveMember, OrganizationGuard.AdminRemovesAnotherOwner | OrganizationsService.RemoveMemberIntended |

The rest of the model follows the code as written: `RemoveMember` is the operation the invariant and guard lemmas are about. `RemoveMemberIntended` is proved to keep the same invariants (`OrganizationInvariants.RemoveMemberIntendedKeepsInvariants`). Its refusal message is the model's own.

## Left out

- JWT signing, bcrypt and `crypto.randomBytes` are parameters: an opaque claims record, a hash function, a comparison function, and fresh token values and row ids. The model requires fresh values not to be in use already.
- Dates use integer seconds. `setDate(+7)` is local-calendar arithmetic; the model does not capture daylight-saving shifts and uses 7·86400.
- Cache entries record their time-to-live, but nothing evicts them. Expiry of blacklist entries is not modelled.
- The model runs every operation sequentially. It does not cover:
  - the concurrent `Promise.all` in `logoutAll` and `delByPrefix` (modelled as an unordered batch);
  - the find-then-delete races in `refreshToken`;
  - the check-then-insert races on unique slugs and e-mails.
- The `$transaction` of `acceptInvite` is one atomic step.
- Cache failures are a whole-cache outage flag. A single call failing while the others succeed is not modelled.
- Database failures other than the membership unique index are not modelled.
- The e-mail job queued by `inviteMember`, logging, and the Bull queue plumbing are left out.
- Controllers, routing and decorators are left out. The controller's role lists appear as constants given to the guard.
- Organization `findAllForUser`, `findById`, `findBySlug`, `delete` and `getMembers` are not modelled. They are plain reads or a cascade delete outside the membership rules.
- The organization `settings` object of the update body is not modelled.
- `createdAt` and `updatedAt` are not modelled, except an invitation's `createdAt`, which orders the pending list.
- Schema defaults are taken as: user role USER, user isActive true, organization isActive true, and the invitation token generated by the database.
- Configuration values are typed. `JWT_REFRESH_EXPIRY_DAYS` is a number of days and `JWT_ACCESS_EXPIRY` is a string. `configService.get<number>` does not convert an environment string. With a string value, `getDate() + days` would concatenate instead of adding. The model assumes a number.
- UsersService.Delete: the database schema is not part of this model. An assumed foreign-key cascade would remove the user's refresh tokens and memberships; the model leaves those tables untouched.
- OrganizationDtos.UpdateViolations and OrganizationDtos.CreateViolations: `@IsOptional` also accepts an explicit `null`. The optional fields here are absent or a string, so a `null` value is not modelled.
- UserCacheCoherence.CreateKeepsCacheCoherent, UserCacheCoherence.UpdateKeepsCacheCoherent and UserCacheCoherence.FindByIdAgreesWithTable: coherence is stated for ids without a colon only. The id key of "email:"+e is the e-mail key of e, so an id containing a colon can alias an e-mail entry. Database ids (cuid/uuid) contain none.
- SharedUtils.Capitalize: letters are mapped for ASCII only. JavaScript's `toUpperCase`/`toLowerCase` also map non-ASCII letters, and for some of them change the length.
- SharedUtils.Truncate: lengths count characters, where JavaScript counts UTF-16 code units. A non-integer or NaN length is not modelled.
- OrganizationDtos.CreateViolations: lengths count characters, not UTF-16 code units. The error messages class-validator produces are not modelled.
- JsNumbers.ParseInt: results are exact integers. Double-precision rounding of very long numerals and the sign of `-0` are not modelled.
- CacheService.DelByPrefix: the prefix is matched literally. Glob metacharacters in a pattern-based key scan are not modelled.
- `formatDate`, `formatDateTime`, `formatCurrency`, `removeAccents`, `generateId` and `sleep` are left out. They depend on locale, Unicode normalization, randomness or timers.

=== FILE: auth_service.dfy ===
/** The authentication service: token issuance, rotation of refresh tokens,
    logout and logout from every device.

    The durable refresh-token table maps each token value (unique) to its
    owner and expiry; the blacklist of revoked tokens lives in the shared
    cache under `refresh_token:<token>`.  Time is an integer number of
    seconds, `now` is supplied by the caller, and so is the random
    value that becomes the next refresh token (`nextToken`).  The signed access token is
    represented by the claims it carries. */
module AuthService {
  import opened Outcomes
  import opened CacheKeys
  import opened CacheService
  import opened UsersService
  import opened JsNumbers

  datatype TokenRecord = TokenRecord(userId: string, expiresAt: int)

  type TokenTable = map<string, TokenRecord>

  datatype AuthState = AuthState(users: UserStore, tokens: TokenTable)

  /** The two configuration values the service reads; absent ones take the
      defaults "15m" and 7. */
  datatype Config = Config(accessExpiry: Option<string>, refreshDays: Option<int>)

  const DEFAULT_ACCESS_EXPIRY: string := "15m"
  const DEFAULT_REFRESH_DAYS: int := 7
  const FALLBACK_EXPIRY_SECONDS: int := 900

  function AccessExpiry(cfg: Config): (r: string) {
    cfg.accessExpiry.GetOr(DEFAULT_ACCESS_EXPIRY)
  }

  function RefreshDays(cfg: Config): (r: int) {
    cfg.refreshDays.GetOr(DEFAULT_REFRESH_DAYS)
  }

  /** The claims signed into an access token, and its expiry setting. */
  datatype AccessClaims = AccessClaims(sub: string, email: string, role: Role, expiresIn: string)

  datatype TokenResponse = TokenResponse(accessToken: AccessClaims, refreshToken: string, expiresIn: JsNumber)

  datatype Issued = Issued(tokens: TokenTable, response: TokenResponse)

  const TOKEN_REVOKED: string := "Token has been revoked"
  const TOKEN_INVALID: string := "Invalid refresh token"
  const TOKEN_EXPIRED: string := "Refresh token has expired"
  const ACCOUNT_DEACTIVATED: string := "Account is deactivated"
  const INVALID_CREDENTIALS: string := "Invalid credentials"

  /** The blacklist entry's lifetime, in milliseconds. */
  const BLACKLIST_TTL_MS: int := REFRESH_TOKEN_TTL * 1000

  /** The user table is consistent and every refresh token belongs to an
      existing user (the table's foreign key). */
  predicate AuthValid(s: AuthState) {
    && TableValid(s.users.table)
    && forall t :: t in s.tokens ==> s.tokens[t].userId in s.users.table.byId
  }

  /** The token's blacklist entry is present and truthy. */
  predicate Blacklisted(c: AppCache, token: string) {
    var v := Get(c, RefreshKey(token));
    v.Some? && Truthy(v.value)
  }

  /** The seconds one unit of a duration suffix stands for. */
  function UnitSeconds(unit: char): (r: Option<int>) {
    match unit
    case 's' => Some(1)
    case 'm' => Some(60)
    case 'h' => Some(3600)
    case 'd' => Some(SECONDS_PER_DAY)
    case _ => None
  }

  /** Reads a duration such as "15m": the number before the last character,
      scaled by the unit the last character names.  Any other last
      character, and the empty string, give the fallback of 900 seconds. */
  function ParseExpiryToSeconds(expiry: string): (r: JsNumber)
    ensures |expiry| == 0 || UnitSeconds(expiry[|expiry| - 1]).None? ==> r == Num(FALLBACK_EXPIRY_SECONDS)
  {
    if |expiry| == 0 then Num(FALLBACK_EXPIRY_SECONDS)
    else
      var value := ParseInt(expiry[..|expiry| - 1]);
      match expiry[|expiry| - 1]
      case 's' => value
      case 'm' => Scale(value, 60)
      case 'h' => Scale(value, 3600)
      case 'd' => Scale(value, SECONDS_PER_DAY)
      case _ => Num(FALLBACK_EXPIRY_SECONDS)
  }

  /** A duration written as a number and one of the four units reads as that
      many units, in seconds. */
  lemma ParseExpiryOfDuration(n: nat, unit: char)
    requires UnitSeconds(unit).Some?
    ensures ParseExpiryToSeconds(Decimal(n) + [unit]) == Num(n * UnitSeconds(unit).value)
  {
    var e := Decimal(n) + [unit];
    assert e[|e| - 1] == unit;
    assert e[..|e| - 1] == Decimal(n);
    ParseIntOfDecimal(n);
    assert ParseInt(e[..|e| - 1]) == Num(n);
  }

  /** The default access-token expiry "15m" is 900 seconds. */
  lemma DefaultAccessExpiryIs900Seconds()
    ensures ParseExpiryToSeconds(DEFAULT_ACCESS_EXPIRY) == Num(900)
  {
    assert Decimal(1) == "1";
    assert Decimal(15) == Decimal(1) + [DigitChar(5)] == "15";
    ParseExpiryOfDuration(15, 'm');
    assert Decimal(15) + ['m'] == DEFAULT_ACCESS_EXPIRY;
  }

  /** A number with no unit letter ("15") falls back to 900 seconds, and a
      unit with no number ("m") is NaN. */
  lemma ParseExpiryEdgeCases()
    ensures ParseExpiryToSeconds("15") == Num(900)
    ensures ParseExpiryToSeconds("m") == NaN
  {
    assert "m"[..0] == "";
  }

  /** Issues an access token for the user and persists exactly one new
      refresh-token record, expiring `RefreshDays(cfg)` days from now. */
  function GenerateTokens(tokens: TokenTable, userId: string, email: string, role: Role,
                          cfg: Config, now: int, nextToken: string): (r: Issued)
    requires nextToken !in tokens
    ensures nextToken in r.tokens && r.tokens - {nextToken} == tokens
    ensures r.tokens[nextToken] == TokenRecord(userId, now + RefreshDays(cfg) * SECONDS_PER_DAY)
    ensures r.response.refreshToken == nextToken
    ensures r.response.accessToken == AccessClaims(userId, email, role, AccessExpiry(cfg))
    ensures r.response.expiresIn == ParseExpiryToSeconds(AccessExpiry(cfg))
  {
    var expiresAt := now + RefreshDays(cfg) * SECONDS_PER_DAY;
    var response := TokenResponse(AccessClaims(userId, email, role, AccessExpiry(cfg)), nextToken,
                                  ParseExpiryToSeconds(AccessExpiry(cfg)));
    Issued(tokens[nextToken := TokenRecord(userId, expiresAt)], response)
  }

  /** A presented token passes every check of `RefreshToken` at time `now`. */
  predicate Refreshable(s: AuthState, token: string, now: int)
    requires AuthValid(s)
  {
    && !Blacklisted(s.users.cache, token)
    && token in s.tokens
    && now <= s.tokens[token].expiresAt
    && s.users.table.byId[s.tokens[token].userId].isActive
  }

  /** Exchanges a refresh token for a new token pair.  The checks run in a
      fixed order, the first failure decides: blacklisted, unknown, expired
      (the stale record is deleted), owner deactivated (the record is kept).
      On success the presented record is deleted and one new record is
      issued to the same user. */
  function RefreshToken(s: AuthState, presented: string, cfg: Config, now: int, nextToken: string): (r: Step<AuthState, TokenResponse>)
    requires AuthValid(s) && nextToken !in s.tokens && nextToken != presented
    ensures Blacklisted(s.users.cache, presented) ==> r == Step(s, Err(Unauthorized(TOKEN_REVOKED)))
    ensures !Blacklisted(s.users.cache, presented) && presented !in s.tokens ==>
      r == Step(s, Err(Unauthorized(TOKEN_INVALID)))
    ensures !Blacklisted(s.users.cache, presented) && presented in s.tokens
            && s.tokens[presented].expiresAt < now ==>
      r == Step(s.(tokens := s.tokens - {presented}), Err(Unauthorized(TOKEN_EXPIRED)))
    ensures !Blacklisted(s.users.cache, presented) && presented in s.tokens
            && now <= s.tokens[presented].expiresAt
            && !s.users.table.byId[s.tokens[presented].userId].isActive ==>
      r == Step(s, Err(Unauthorized(ACCOUNT_DEACTIVATED)))
    ensures r.result.Ok? <==> Refreshable(s, presented, now)
    ensures r.result.Ok? ==>
      var owner := s.users.table.byId[s.tokens[presented].userId];
      && r.next.users == s.users
      && r.next.tokens == (s.tokens - {presented})[nextToken := TokenRecord(owner.id, now + RefreshDays(cfg) * SECONDS_PER_DAY)]
      && r.result.value.refreshToken == nextToken
      && r.result.value.accessToken == AccessClaims(owner.id, owner.email, owner.role, AccessExpiry(cfg))
    ensures AuthValid(r.next)
  {
    if Blacklisted(s.users.cache, presented) then
      Step(s, Err(Unauthorized(TOKEN_REVOKED)))
    else if presented !in s.tokens then
      Step(s, Err(Unauthorized(TOKEN_INVALID)))
    else
      var record := s.tokens[presented];
      if record.expiresAt < now then
        Step(s.(tokens := s.tokens - {presented}), Err(Unauthorized(TOKEN_EXPIRED)))
      else
        var owner := s.users.table.byId[record.userId];
        if !owner.isActive then
          Step(s, Err(Unauthorized(ACCOUNT_DEACTIVATED)))
        else
          var issued := GenerateTokens(s.tokens - {presented}, owner.id, owner.email, owner.role, cfg, now, nextToken);
          Step(s.(tokens := issued.tokens), Ok(issued.response))
  }

  /** Blacklists the token unconditionally, for the full refresh lifetime,
      then deletes its record only if it belongs to `userId`. */
  function Logout(s: AuthState, token: string, userId: string): (r: AuthState)
    requires AuthValid(s)
    ensures r.users.table == s.users.table && AuthValid(r)
    ensures s.users.cache.available ==>
      && Blacklisted(r.users.cache, token)
      && r.users.cache.entries[RefreshKey(token)].ttlMs == BLACKLIST_TTL_MS
    ensures r.users.cache.available == s.users.cache.available
    ensures r.users.cache.listsKeys == s.users.cache.listsKeys
    ensures r.users.cache.entries - {RefreshKey(token)} == s.users.cache.entries - {RefreshKey(token)}
    ensures !s.users.cache.available ==> r.users.cache == s.users.cache
    ensures token in s.tokens && s.tokens[token].userId == userId ==> r.tokens == s.tokens - {token}
    ensures !(token in s.tokens && s.tokens[token].userId == userId) ==> r.tokens == s.tokens
  {
    var cache := Set(s.users.cache, RefreshKey(token), Flag(true), Some(BLACKLIST_TTL_MS));
    var tokens := if token in s.tokens && s.tokens[token].userId == userId then s.tokens - {token} else s.tokens;
    AuthState(s.users.(cache := cache), tokens)
  }

  /** The tokens `userId` holds. */
  function TokensOf(tokens: TokenTable, userId: string): (r: set<string>) {
    set t | t in tokens && tokens[t].userId == userId
  }

  /** Blacklists every token `userId` holds, then deletes all of its
      records; other users' records are untouched. */
  function LogoutAll(s: AuthState, userId: string): (r: AuthState)
    requires AuthValid(s)
    ensures r.users.table == s.users.table && AuthValid(r)
    ensures r.users.cache.available == s.users.cache.available
    ensures r.users.cache.listsKeys == s.users.cache.listsKeys
    ensures s.users.cache.available ==>
      forall t :: t in s.tokens && s.tokens[t].userId == userId ==>
        Blacklisted(r.users.cache, t) && r.users.cache.entries[RefreshKey(t)].ttlMs == BLACKLIST_TTL_MS
    ensures !s.users.cache.available ==> r.users.cache == s.users.cache
    ensures forall t :: t in r.tokens ==> r.tokens[t].userId != userId
    ensures forall t :: t in s.tokens && s.tokens[t].userId != userId ==> t in r.tokens && r.tokens[t] == s.tokens[t]
    ensures r.tokens.Keys <= s.tokens.Keys
    ensures TokensOf(r.tokens, userId) == {}
    ensures forall k :: k !in (set t | t in TokensOf(s.tokens, userId) :: RefreshKey(t)) ==>
      Get(r.users.cache, k) == Get(s.users.cache, k)
    ensures r.users.cache.entries - (set t | t in TokensOf(s.tokens, userId) :: RefreshKey(t))
            == s.users.cache.entries - (set t | t in TokensOf(s.tokens, userId) :: RefreshKey(t))
  {
    var owned := TokensOf(s.tokens, userId);
    var keys := set t | t in owned :: RefreshKey(t);
    var cache := SetEach(s.users.cache, keys, Flag(true), Some(BLACKLIST_TTL_MS));
    var tokens := map t | t in s.tokens && s.tokens[t].userId != userId :: s.tokens[t];
    AuthState(s.users.(cache := cache), tokens)
  }

  datatype LoginDto = LoginDto(email: string, password: string)

  /** Logs a user in: unknown e-mail and wrong password are both "Invalid
      credentials", a deactivated account is refused before the password is
      compared.  `verify` is the password hash comparison. */
  function Login(s: AuthState, dto: LoginDto, cfg: Config, now: int, nextToken: string,
                 verify: (string, string) -> bool): (r: Step<AuthState, TokenResponse>)
    requires AuthValid(s) && nextToken !in s.tokens
    ensures !EmailTaken(s.users.table, dto.email) ==> r == Step(s, Err(Unauthorized(INVALID_CREDENTIALS)))
    ensures EmailTaken(s.users.table, dto.email) ==>
      var row := FindByEmailWithPassword(s.users.table, dto.email).value;
      && (!row.isActive ==> r == Step(s, Err(Unauthorized(ACCOUNT_DEACTIVATED))))
      && (row.isActive && !verify(dto.password, row.password) ==> r == Step(s, Err(Unauthorized(INVALID_CREDENTIALS))))
      && (r.result.Ok? <==> row.isActive && verify(dto.password, row.password))
      && (r.result.Ok? ==>
            && r.next.users == s.users
            && r.next.tokens == s.tokens[nextToken := TokenRecord(row.id, now + RefreshDays(cfg) * SECONDS_PER_DAY)]
            && r.result.value.accessToken.sub == row.id
            && r.result.value.refreshToken == nextToken)
    ensures AuthValid(r.next)
  {
    match FindByEmailWithPassword(s.users.table, dto.email)
    case None => Step(s, Err(Unauthorized(INVALID_CREDENTIALS)))
    case Some(row) =>
      if !row.isActive then Step(s, Err(Unauthorized(ACCOUNT_DEACTIVATED)))
      else if !verify(dto.password, row.password) then Step(s, Err(Unauthorized(INVALID_CREDENTIALS)))
      else
        var issued := GenerateTokens(s.tokens, row.id, row.email, row.role, cfg, now, nextToken);
        Step(s.(tokens := issued.tokens), Ok(issued.response))
  }

  datatype RegisterDto = RegisterDto(email: string, password: string, name: Option<string>)

  /** Registers a user: refused when the cache-aside lookup by e-mail finds
      one; otherwise creates the user (with the default role) and issues a
      first token pair for it.  `newId` is the id the database generates. */
  function Register(s: AuthState, dto: RegisterDto, cfg: Config, now: int, newId: string, nextToken: string,
                    hash: string -> string): (r: Step<AuthState, TokenResponse>)
    requires AuthValid(s) && newId !in s.users.table.byId && nextToken !in s.tokens
    ensures FindByEmail(s.users, dto.email).result.value.Some? ==>
      r == Step(s.(users := FindByEmail(s.users, dto.email).next), Err(Conflict(USER_EXISTS)))
    ensures r.result.Ok? ==>
      && newId in r.next.users.table.byId
      && r.next.users.table.byId[newId] == UserRow(newId, dto.email, hash(dto.password), dto.name, USER, true)
      && r.next.tokens == s.tokens[nextToken := TokenRecord(newId, now + RefreshDays(cfg) * SECONDS_PER_DAY)]
      && r.result.value.accessToken == AccessClaims(newId, dto.email, USER, AccessExpiry(cfg))
      && r.result.value.refreshToken == nextToken
    ensures AuthValid(r.next)
  {
    var lookup := FindByEmail(s.users, dto.email);
    if lookup.result.value.Some? then
      Step(s.(users := lookup.next), Err(Conflict(USER_EXISTS)))
    else
      var created := Create(lookup.next, CreateUserDto(dto.email, dto.password, dto.name, None), newId, hash);
      match created.result
      case Err(e) => Step(s.(users := created.next), Err(e))
      case Ok(user) =>
        var issued := GenerateTokens(s.tokens, user.id, user.email, user.role, cfg, now, nextToken);
        Step(AuthState(created.next, issued.tokens), Ok(issued.response))
  }
}

=== FILE: cache_keys.dfy ===
/** Cache key prefixes, time-to-live constants and the key builders.
    Every key is a namespace prefix, a colon and the argument. */
module CacheKeys {
  import opened Text

  const USER_PREFIX: string := "user"
  const USER_BY_EMAIL_PREFIX: string := "user:email"
  const REFRESH_TOKEN_PREFIX: string := "refresh_token"
  const SESSION_PREFIX: string := "session"

  /** Time-to-live values, in seconds. */
  const USER_TTL: int := 300
  const USER_BY_EMAIL_TTL: int := 300
  const REFRESH_TOKEN_TTL: int := 604800
  const SESSION_TTL: int := 900
  const DEFAULT_TTL: int := 300

  const SECONDS_PER_DAY: int := 86400

  /** The key of a cached user, looked up by id. */
  function UserKey(userId: string): (k: string)
    ensures StartsWith(k, "user:") && k[5..] == userId
  {
    var k := USER_PREFIX + ":" + userId;
    assert k[..5] == "user:";
    k
  }

  /** The key of a cached user, looked up by e-mail address. */
  function EmailKey(email: string): (k: string)
    ensures StartsWith(k, "user:email:") && k[11..] == email
  {
    var k := USER_BY_EMAIL_PREFIX + ":" + email;
    assert k[..11] == "user:email:";
    k
  }

  /** The key of a revoked refresh token's blacklist entry. */
  function RefreshKey(token: string): (k: string)
    ensures StartsWith(k, "refresh_token:") && k[14..] == token
  {
    var k := REFRESH_TOKEN_PREFIX + ":" + token;
    assert k[..14] == "refresh_token:";
    k
  }

  /** The key of a cached session. */
  function SessionKey(sessionId: string): (k: string)
    ensures StartsWith(k, "session:") && k[8..] == sessionId
  {
    var k := SESSION_PREFIX + ":" + sessionId;
    assert k[..8] == "session:";
    k
  }

  /** Each builder is injective: distinct arguments never share a key. */
  lemma KeyBuildersInjective(a: string, b: string)
    ensures UserKey(a) == UserKey(b) ==> a == b
    ensures EmailKey(a) == EmailKey(b) ==> a == b
    ensures RefreshKey(a) == RefreshKey(b) ==> a == b
    ensures SessionKey(a) == SessionKey(b) ==> a == b
  {
  }

  /** Refresh-token keys, session keys and user keys live in disjoint
      namespaces: they already differ in their first character. */
  lemma NamespacesDisjoint(x: string, y: string)
    ensures RefreshKey(x) != SessionKey(y)
    ensures RefreshKey(x) != UserKey(y)
    ensures RefreshKey(x) != EmailKey(y)
    ensures SessionKey(x) != UserKey(y)
    ensures SessionKey(x) != EmailKey(y)
  {
    assert RefreshKey(x)[0] == 'r';
    assert SessionKey(x)[0] == 's';
    assert UserKey(y)[0] == 'u';
    assert EmailKey(y)[0] == 'u';
    assert SessionKey(y)[0] == 's';
  }

  /** The two user namespaces overlap: the id key of "email:" + e is the
      e-mail key of e. */
  lemma UserNamespacesOverlap(e: string)
    ensures UserKey("email:" + e) == EmailKey(e)
  {
  }

  /** The overlap needs a colon in the id: an id without one never has the
      same key as an e-mail lookup. */
  lemma ColonFreeIdKeyIsNotEmailKey(id: string, e: string)
    requires ':' !in id
    ensures UserKey(id) != EmailKey(e)
  {
    // The e-mail key has a colon at position 10; the id key has the id's
    // sixth character there, or is too short to reach it.
    assert EmailKey(e)[10] == ':';
    if |id| > 5 {
      assert UserKey(id)[10] == id[5];
    } else {
      assert |UserKey(id)| < |EmailKey(e)|;
    }
  }

  /** The blacklist entry of a revoked token lives exactly as long as the
      default refresh-token lifetime of seven days. */
  lemma RefreshTokenTtlIsSevenDays()
    ensures REFRESH_TOKEN_TTL == 7 * SECONDS_PER_DAY
  {
  }
}

=== FILE: cache_service.dfy ===
/** The cache service: a key/value store with per-entry time-to-live, in
    front of which every operation swallows transport errors.

    The store is `entries`; `available` is false while the cache server is
    unreachable, in which case every call fails inside the service, the
    error is logged and the call behaves as a miss (`get`) or as a no-op
    (`set`, `del`, `delByPrefix`, `reset`).  `listsKeys` says whether the
    underlying store offers key listing, which `delByPrefix` needs.
    Entries never expire on their own in the model: the time-to-live is
    recorded but no clock evicts anything. */
module CacheService {
  import opened Outcomes
  import opened Text
  import CacheKeys

  datatype Entry<V> = Entry(value: V, ttlMs: int)

  datatype Cache<V> = Cache(entries: map<string, Entry<V>>, available: bool, listsKeys: bool)

  /** The time-to-live used when `set` is given none: five minutes, in ms. */
  const DEFAULT_TTL_MS: int := CacheKeys.DEFAULT_TTL * 1000

  /** What a `getOrSet` factory can produce. */
  datatype FactoryValue<V> = Undefined | Null | Value(v: V)

  /** The outcome of `getOrSet`: the cache afterwards, the returned value,
      and whether the factory was invoked. */
  datatype Fetched<V> = Fetched(cache: Cache<V>, value: FactoryValue<V>, factoryCalled: bool)

  /** The stored value, or `None` (undefined) on a miss or while the cache
      is unreachable. */
  function Get<V>(c: Cache<V>, key: string): (r: Option<V>)
    ensures r.Some? <==> c.available && key in c.entries
    ensures r.Some? ==> r.value == c.entries[key].value
  {
    if c.available && key in c.entries then Some(c.entries[key].value) else None
  }

  /** Stores `value` under `key` with the given time-to-live, or the
      default one when none is given; only `key` changes, and nothing at all
      while the cache is unreachable. */
  function Set<V>(c: Cache<V>, key: string, value: V, ttl: Option<int>): (c': Cache<V>)
    ensures c'.available == c.available && c'.listsKeys == c.listsKeys
    ensures c.available ==> Get(c', key) == Some(value)
    ensures c.available ==> c'.entries[key].ttlMs == ttl.GetOr(DEFAULT_TTL_MS)
    ensures c'.entries - {key} == c.entries - {key}
    ensures !c.available ==> c' == c
  {
    if c.available then
      c.(entries := c.entries[key := Entry(value, ttl.GetOr(DEFAULT_TTL_MS))])
    else
      c
  }

  /** Removes `key` only; nothing at all while the cache is unreachable. */
  function Del<V>(c: Cache<V>, key: string): (c': Cache<V>)
    ensures c'.available == c.available && c'.listsKeys == c.listsKeys
    ensures c.available ==> Get(c', key) == None
    ensures c'.entries - {key} == c.entries - {key}
    ensures !c.available ==> c' == c
  {
    if c.available then c.(entries := c.entries - {key}) else c
  }

  /** Removes every key that starts with `prefix` when the store can list
      its keys; a no-op otherwise. */
  function DelByPrefix<V>(c: Cache<V>, prefix: string): (c': Cache<V>)
    ensures c'.available == c.available && c'.listsKeys == c.listsKeys
    ensures c.available && c.listsKeys ==>
      forall k :: k in c'.entries <==> k in c.entries && !StartsWith(k, prefix)
    ensures forall k :: k in c'.entries ==> k in c.entries && c'.entries[k] == c.entries[k]
    ensures !(c.available && c.listsKeys) ==> c' == c
  {
    if c.available && c.listsKeys then
      c.(entries := map k | k in c.entries && !StartsWith(k, prefix) :: c.entries[k])
    else
      c
  }

  /** Clears the whole cache; a no-op while it is unreachable. */
  function Reset<V>(c: Cache<V>): (c': Cache<V>)
    ensures c'.available == c.available && c'.listsKeys == c.listsKeys
    ensures c.available ==> forall k :: Get(c', k) == None
    ensures !c.available ==> c' == c
  {
    if c.available then c.(entries := map[]) else c
  }

  /** Cache-aside read: returns the cached value without invoking the
      factory whenever `get` finds one; otherwise returns what the factory
      produced and caches it only if it is neither undefined nor null.
      `produced` is the value the factory would return if invoked. */
  function GetOrSet<V>(c: Cache<V>, key: string, produced: FactoryValue<V>, ttl: Option<int>): (r: Fetched<V>)
    ensures Get(c, key).Some? ==> r == Fetched(c, Value(Get(c, key).value), false)
    ensures Get(c, key).None? ==> r.factoryCalled && r.value == produced
    ensures Get(c, key).None? && produced.Value? ==> r.cache == Set(c, key, produced.v, ttl)
    ensures Get(c, key).None? && !produced.Value? ==> r.cache == c
  {
    match Get(c, key)
    case Some(cached) => Fetched(c, Value(cached), false)
    case None =>
      if produced.Value? then Fetched(Set(c, key, produced.v, ttl), produced, true)
      else Fetched(c, produced, true)
  }

  /** Sets every key of `keys` to `value`, as a batch of independent,
      concurrently issued `set` calls does. */
  function SetEach<V>(c: Cache<V>, keys: set<string>, value: V, ttl: Option<int>): (c': Cache<V>)
    ensures c'.available == c.available && c'.listsKeys == c.listsKeys
    ensures c.available ==> forall k :: k in keys ==> Get(c', k) == Some(value)
    ensures c.available ==> forall k :: k in keys ==> k in c'.entries && c'.entries[k].ttlMs == ttl.GetOr(DEFAULT_TTL_MS)
    ensures forall k :: k !in keys ==> Get(c', k) == Get(c, k)
    ensures c'.entries - keys == c.entries - keys
    ensures !c.available ==> c' == c
  {
    if c.available then
      c.(entries := map k | k in c.entries.Keys + keys ::
                      if k in keys then Entry(value, ttl.GetOr(DEFAULT_TTL_MS)) else c.entries[k])
    else
      c
  }

  /** The batch does not depend on the order of its writes: it is the same as
      issuing the writes one after another, in any order. */
  lemma SetEachIsSequentialSets<V>(c: Cache<V>, keys: set<string>, k: string, value: V, ttl: Option<int>)
    requires k !in keys
    ensures SetEach(c, keys + {k}, value, ttl) == Set(SetEach(c, keys, value, ttl), k, value, ttl)
    ensures SetEach(c, {}, value, ttl) == c
  {
    if c.available {
      var lhs := SetEach(c, keys + {k}, value, ttl);
      var rhs := Set(SetEach(c, keys, value, ttl), k, value, ttl);
      assert lhs.entries == rhs.entries;
      assert SetEach(c, {}, value, ttl).entries == c.entries;
    }
  }

  /** A `getOrSet` miss that produced a value is followed by hits. */
  lemma GetOrSetThenHit<V>(c: Cache<V>, key: string, produced: FactoryValue<V>, ttl: Option<int>, later: FactoryValue<V>)
    requires c.available && produced.Value?
    ensures var first := GetOrSet(c, key, produced, ttl);
            var second := GetOrSet(first.cache, key, later, ttl);
            second.value == first.value && !second.factoryCalled
  {
  }
}

=== FILE: cleanup_processor.dfy ===
/** The periodic cleanup jobs: the hourly sweep of expired refresh tokens
    and the sweep of cached sessions. */
module CleanupProcessor {
  import opened Outcomes
  import opened Text
  import opened CacheKeys
  import opened CacheService
  import opened UsersService
  import opened AuthService

  datatype SweepResult = SweepResult(tokens: TokenTable, deletedCount: nat)

  /** The tokens a sweep at `now` deletes: those already expired. */
  function Expired(tokens: TokenTable, now: int): (r: set<string>) {
    set t | t in tokens && tokens[t].expiresAt < now
  }

  /** Deletes every record with `expiresAt < now` and reports how many rows
      the delete matched.  A record expiring exactly at `now` survives. */
  function HandleExpiredTokens(tokens: TokenTable, now: int): (r: SweepResult)
    ensures forall t :: t in r.tokens <==> t in tokens && now <= tokens[t].expiresAt
    ensures forall t :: t in r.tokens ==> r.tokens[t] == tokens[t]
    ensures r.deletedCount == |tokens| - |r.tokens|
  {
    var kept := map t | t in tokens && now <= tokens[t].expiresAt :: tokens[t];
    var deleted := Expired(tokens, now);
    assert tokens.Keys == kept.Keys + deleted && kept.Keys !! deleted;
    SweepResult(kept, |deleted|)
  }

  /** Clears every cached session.  The prefix names the session namespace
      "session:" exactly; a store without key listing is left as is. */
  function HandleInactiveSessions(c: AppCache): (r: AppCache)
    ensures r.available == c.available && r.listsKeys == c.listsKeys
    ensures !c.available || !c.listsKeys ==> r == c
    ensures forall k :: k in r.entries ==> k in c.entries && r.entries[k] == c.entries[k]
    ensures forall k :: Get(r, k) == (if c.listsKeys && StartsWith(k, "session:") then None else Get(c, k))
    ensures c.available && c.listsKeys ==> forall id :: Get(r, SessionKey(id)) == None
    ensures forall t :: Get(r, RefreshKey(t)) == Get(c, RefreshKey(t))
    ensures forall id :: Get(r, UserKey(id)) == Get(c, UserKey(id))
    ensures forall e :: Get(r, EmailKey(e)) == Get(c, EmailKey(e))
  {
    assert SESSION_PREFIX + ":" == "session:";
    var r := DelByPrefix(c, SESSION_PREFIX + ":");
    forall x ensures !StartsWith(RefreshKey(x), "session:") && !StartsWith(UserKey(x), "session:")
                     && !StartsWith(EmailKey(x), "session:") {
      assert RefreshKey(x)[0] == 'r' && UserKey(x)[0] == 'u' && EmailKey(x)[0] == 'u';
    }
    r
  }

  /** The sweep never changes whether a refresh at the same instant
      succeeds; it only turns "expired" rejections into "invalid" ones. */
  lemma SweepKeepsRefreshOutcome(s: AuthState, token: string, cfg: Config, now: int, nextToken: string)
    requires AuthValid(s) && nextToken !in s.tokens && nextToken != token
    ensures var swept := s.(tokens := HandleExpiredTokens(s.tokens, now).tokens);
      && AuthValid(swept)
      && (RefreshToken(s, token, cfg, now, nextToken).result.Ok?
          <==> RefreshToken(swept, token, cfg, now, nextToken).result.Ok?)
      && (RefreshToken(s, token, cfg, now, nextToken).result == Err(Unauthorized(TOKEN_EXPIRED)) ==>
            RefreshToken(swept, token, cfg, now, nextToken).result == Err(Unauthorized(TOKEN_INVALID)))
  {
  }
}

=== FILE: js_numbers.dfy ===
/** The slice of JavaScript number semantics the services rely on:
    `parseInt(s, 10)` and multiplying its result, NaN included.
    Numbers are unbounded integers here; a JavaScript number loses
    precision beyond 2^53. */
module JsNumbers {
  import opened Text

  datatype JsNumber = NaN | Num(value: int)

  /** `n * k`; NaN stays NaN. */
  function Scale(n: JsNumber, k: int): (r: JsNumber)
    ensures r.NaN? <==> n.NaN?
    ensures n.Num? ==> r.value == n.value * k
  {
    match n
    case NaN => NaN
    case Num(v) => Num(v * k)
  }

  /** `s` without its leading white space. */
  function TrimStart(s: string): (r: string)
    ensures |r| <= |s| && r == s[|s| - |r|..]
    ensures |r| > 0 ==> !IsJsWhitespace(r[0])
    ensures forall i :: 0 <= i < |s| - |r| ==> IsJsWhitespace(s[i])
  {
    if |s| > 0 && IsJsWhitespace(s[0]) then TrimStart(s[1..]) else s
  }

  /** The longest prefix of `s` made of decimal digits. */
  function DigitRun(s: string): (r: string)
    ensures |r| <= |s| && r == s[..|r|]
    ensures forall i :: 0 <= i < |r| ==> IsDigit(r[i])
    ensures |r| < |s| ==> !IsDigit(s[|r|])
  {
    if |s| > 0 && IsDigit(s[0]) then [s[0]] + DigitRun(s[1..]) else []
  }

  predicate AllDigits(s: string) {
    forall i :: 0 <= i < |s| ==> IsDigit(s[i])
  }

  /** The value of a string of decimal digits, most significant first. */
  function DigitsValue(ds: string): (r: nat)
    requires AllDigits(ds)
  {
    if |ds| == 0 then 0
    else DigitsValue(ds[..|ds| - 1]) * 10 + (ds[|ds| - 1] as int - '0' as int)
  }

  /** After the white space, a digit follows, either at once or after one
      sign character. */
  predicate StartsNumber(t: string) {
    || (|t| > 0 && IsDigit(t[0]))
    || (|t| > 1 && (t[0] == '-' || t[0] == '+') && IsDigit(t[1]))
  }

  /** `parseInt(s, 10)`: skip leading white space, read an optional sign,
      then as many decimal digits as follow; NaN when there are none.
      Whatever comes after the digits is ignored. */
  function ParseInt(s: string): (r: JsNumber)
    ensures r.NaN? <==> !StartsNumber(TrimStart(s))
    ensures r.Num? && TrimStart(s)[0] == '-' ==> r.value <= 0
    ensures r.Num? && TrimStart(s)[0] != '-' ==> r.value >= 0
  {
    var t := TrimStart(s);
    var signed := |t| > 0 && (t[0] == '-' || t[0] == '+');
    var body := if signed then t[1..] else t;
    var ds := DigitRun(body);
    if |ds| == 0 then NaN
    else if signed && t[0] == '-' then Num(-(DigitsValue(ds) as int))
    else Num(DigitsValue(ds))
  }

  function DigitChar(d: nat): (c: char)
    requires d < 10
    ensures IsDigit(c) && c as int - '0' as int == d
  {
    ('0' as int + d) as char
  }

  /** The decimal rendering of `n`, without sign or leading zeros. */
  function Decimal(n: nat): (r: string)
    ensures |r| > 0 && AllDigits(r)
  {
    if n < 10 then [DigitChar(n)] else Decimal(n / 10) + [DigitChar(n % 10)]
  }

  lemma {:induction false} DecimalValue(n: nat)
    ensures DigitsValue(Decimal(n)) == n
  {
    if n >= 10 {
      var r := Decimal(n);
      assert r[..|r| - 1] == Decimal(n / 10);
      DecimalValue(n / 10);
    }
  }

  lemma {:induction false} DigitRunOfDigits(s: string)
    requires AllDigits(s)
    ensures DigitRun(s) == s
  {
    if |s| > 0 {
      DigitRunOfDigits(s[1..]);
      assert [s[0]] + s[1..] == s;
    }
  }

  lemma NoLeadingSpace(s: string)
    requires |s| > 0 && !IsJsWhitespace(s[0])
    ensures TrimStart(s) == s
  {
  }

  /** `parseInt` reads back the decimal rendering of any natural number. */
  lemma ParseIntOfDecimal(n: nat)
    ensures ParseInt(Decimal(n)) == Num(n)
  {
    var s := Decimal(n);
    assert !IsJsWhitespace(s[0]);
    assert TrimStart(s) == s;
    DigitRunOfDigits(s);
    DecimalValue(n);
  }

  /** ... and of its negation. */
  lemma ParseIntOfNegativeDecimal(n: nat)
    ensures ParseInt("-" + Decimal(n)) == Num(-(n as int))
  {
    var d := Decimal(n);
    var s := "-" + d;
    assert s[0] == '-' && s[1..] == d;
    NoLeadingSpace(s);
    DigitRunOfDigits(d);
    DecimalValue(n);
  }

  /** A string that does not start with a digit, sign or white space does
      not parse. */
  lemma ParseIntOfNonNumeric(s: string)
    requires |s| > 0 && !IsDigit(s[0]) && s[0] != '-' && s[0] != '+' && !IsJsWhitespace(s[0])
    ensures ParseInt(s) == NaN
  {
    assert TrimStart(s) == s;
  }
}

=== FILE: organization_dtos.dfy ===
/** The validation rules of the organization request bodies, as predicates
    on the body types the service accepts.  Lengths count characters. */
module OrganizationDtos {
  import opened Outcomes
  import opened OrganizationsService

  const NAME_MIN: int := 2
  const NAME_MAX: int := 100
  const SLUG_MIN: int := 2
  const SLUG_MAX: int := 50
  const DESCRIPTION_MAX: int := 500

  /** The fields a validation failure is reported against. */
  datatype Field = Name | Slug | Description

  /** The class `[a-z0-9-]` of the slug pattern. */
  predicate SlugChar(c: char) {
    ('a' <= c <= 'z') || ('0' <= c <= '9') || c == '-'
  }

  predicate ValidCreateName(name: string) {
    NAME_MIN <= |name| <= NAME_MAX
  }

  /** Length bounds plus the pattern `^[a-z0-9-]+$`. */
  predicate ValidSlug(slug: string) {
    SLUG_MIN <= |slug| <= SLUG_MAX && forall i :: 0 <= i < |slug| ==> SlugChar(slug[i])
  }

  /** Optional fields are checked only when present. */
  predicate ValidDescription(d: Option<string>) {
    d.None? || |d.value| <= DESCRIPTION_MAX
  }

  /** The fields of a create body that break a rule. */
  function CreateViolations(dto: CreateOrgDto): (r: set<Field>)
    ensures Name in r <==> !ValidCreateName(dto.name)
    ensures Slug in r <==> !(SLUG_MIN <= |dto.slug| <= SLUG_MAX) || exists i :: 0 <= i < |dto.slug| && !SlugChar(dto.slug[i])
    ensures Description in r <==> dto.description.Some? && |dto.description.value| > DESCRIPTION_MAX
    ensures r == {} <==> ValidCreateName(dto.name) && ValidSlug(dto.slug) && ValidDescription(dto.description)
  {
    (if ValidCreateName(dto.name) then {} else {Name})
    + (if ValidSlug(dto.slug) then {} else {Slug})
    + (if ValidDescription(dto.description) then {} else {Description})
  }

  /** The fields of an update body that break a rule.  There is no slug
      field and no lower bound on the name. */
  function UpdateViolations(dto: UpdateOrgDto): (r: set<Field>)
    ensures Slug !in r
    ensures Name in r <==> dto.name.Some? && |dto.name.value| > NAME_MAX
    ensures Description in r <==> dto.description.Some? && |dto.description.value| > DESCRIPTION_MAX
  {
    (if dto.name.None? || |dto.name.value| <= NAME_MAX then {} else {Name})
    + (if ValidDescription(dto.description) then {} else {Description})
  }

  /** Every field of an update is optional. */
  lemma EmptyUpdateIsValid()
    ensures UpdateViolations(UpdateOrgDto(None, None, None)) == {}
  {
  }

  /** An update may set a one-character name that creation refuses, while
      every name creation accepts is accepted by an update. */
  lemma UpdateNameRuleIsLooser(name: string)
    ensures ValidCreateName(name) ==> Name !in UpdateViolations(UpdateOrgDto(Some(name), None, None))
    ensures Name !in UpdateViolations(UpdateOrgDto(Some("a"), None, None))
    ensures Name in CreateViolations(CreateOrgDto("a", "ok", None))
  {
  }

  /** Upper-case letters, underscores and spaces are refused in a slug,
      whatever its length. */
  lemma SlugRefusesForeignCharacters(slug: string, i: int)
    requires 0 <= i < |slug| && (('A' <= slug[i] <= 'Z') || slug[i] == '_' || slug[i] == ' ')
    ensures !ValidSlug(slug)
    ensures Slug in CreateViolations(CreateOrgDto("name", slug, None))
  {
    assert !SlugChar(slug[i]);
  }

  lemma SlugExamples()
    ensures ValidSlug("acme-2")
    ensures !ValidSlug("a")
    ensures !ValidSlug("Acme")
  {
    assert !SlugChar("Acme"[0]);
  }

  /** A valid create body leads to an organization whose stored name and
      slug satisfy the create rules; updates keep the slug valid since they
      never touch it. */
  lemma ValidBodyYieldsValidOrganization(db: OrgDb, dto: CreateOrgDto, userId: string, newOrgId: string,
                                         newMemberId: string, update: UpdateOrgDto)
    requires Valid(db) && newOrgId !in db.orgs && newMemberId !in db.members
    requires CreateViolations(dto) == {}
    requires Create(db, dto, userId, newOrgId, newMemberId).result.Ok?
    ensures var org := Create(db, dto, userId, newOrgId, newMemberId).result.value;
            ValidCreateName(org.name) && ValidSlug(org.slug)
    ensures var next := Create(db, dto, userId, newOrgId, newMemberId).next;
            var u := Update(next, newOrgId, update);
            u.result.Ok? && ValidSlug(u.result.value.slug)
  {
  }
}

=== FILE: organization_guard.dfy ===
/** The organization guard: a pure decision over the request, the
    organization table and the membership table, with a fixed order of
    checks in which the first failure decides the error. */
module OrganizationGuard {
  import opened Outcomes
  import opened OrganizationsService
  import OrganizationInvariants

  /** Route parameters as strings; absent and empty values are both falsy. */
  datatype Params = Params(organizationId: Option<string>, id: Option<string>)

  /** `user` is the id of the authenticated caller, if any. */
  datatype GuardRequest = GuardRequest(user: Option<string>, params: Params)

  /** What the guard attaches to the request on success. */
  datatype OrgContext = OrgContext(id: string, name: string, slug: string, role: OrgRole)

  const USER_NOT_AUTHENTICATED: string := "User not authenticated"
  const ORG_ID_REQUIRED: string := "Organization ID is required"
  const ORG_INACTIVE: string := "Organization is inactive"
  const REQUIRED_ROLE_PREFIX: string := "Required role: "

  /** Role lists the organizations controller declares per route; routes
      without a list admit any member. */
  const UPDATE_ROLES: seq<OrgRole> := [OWNER, ADMIN]
  const DELETE_ROLES: seq<OrgRole> := [OWNER]
  const INVITE_ROLES: seq<OrgRole> := [OWNER, ADMIN]
  const UPDATE_MEMBER_ROLE_ROLES: seq<OrgRole> := [OWNER]
  const REMOVE_MEMBER_ROLES: seq<OrgRole> := [OWNER, ADMIN]
  const LIST_INVITES_ROLES: seq<OrgRole> := [OWNER, ADMIN]
  const CANCEL_INVITE_ROLES: seq<OrgRole> := [OWNER, ADMIN]

  predicate Truthy(p: Option<string>) {
    p.Some? && p.value != ""
  }

  /** `organizationId`, falling back to `id` when the former is falsy. */
  function OrgIdParam(p: Params): (r: Option<string>)
    ensures r.Some? <==> Truthy(p.organizationId) || Truthy(p.id)
    ensures r.Some? ==> r.value != ""
    ensures Truthy(p.organizationId) ==> r == p.organizationId
    ensures !Truthy(p.organizationId) && Truthy(p.id) ==> r == p.id
  {
    if Truthy(p.organizationId) then p.organizationId
    else if Truthy(p.id) then p.id
    else None
  }

  function RoleName(role: OrgRole): (r: string) {
    match role
    case OWNER => "OWNER"
    case ADMIN => "ADMIN"
    case MEMBER => "MEMBER"
  }

  /** The role names separated by " or ". */
  function JoinRoles(roles: seq<OrgRole>): (r: string) {
    if |roles| == 0 then ""
    else if |roles| == 1 then RoleName(roles[0])
    else RoleName(roles[0]) + " or " + JoinRoles(roles[1..])
  }

  /** An absent or empty role list admits every role. */
  predicate RoleAllowed(role: OrgRole, required: Option<seq<OrgRole>>) {
    required.None? || |required.value| == 0 || role in required.value
  }

  /** The access rule, stated without the membership index: an active
      organization of which the user is a member in an admitted role. */
  predicate Authorized(db: OrgDb, userId: string, orgId: string, required: Option<seq<OrgRole>>) {
    && orgId in db.orgs && db.orgs[orgId].isActive
    && exists m :: m in db.members && db.members[m].userId == userId && db.members[m].orgId == orgId
                   && RoleAllowed(db.members[m].role, required)
  }

  function CanActivate(db: OrgDb, req: GuardRequest, required: Option<seq<OrgRole>>): (r: Result<OrgContext>)
    requires MembersIndexed(db)
    ensures req.user.None? ==> r == Err(Forbidden(USER_NOT_AUTHENTICATED))
    ensures req.user.Some? && OrgIdParam(req.params).None? ==> r == Err(Forbidden(ORG_ID_REQUIRED))
    ensures req.user.Some? && OrgIdParam(req.params).Some? ==>
      var orgId := OrgIdParam(req.params).value;
      && (orgId !in db.orgs ==> r == Err(NotFound(ORG_NOT_FOUND)))
      && (orgId in db.orgs && !db.orgs[orgId].isActive ==> r == Err(Forbidden(ORG_INACTIVE)))
      && (orgId in db.orgs && db.orgs[orgId].isActive && !IsMember(db, req.user.value, orgId) ==>
            r == Err(Forbidden(NOT_A_MEMBER)))
      && (r.Ok? <==> Authorized(db, req.user.value, orgId, required))
      && (r.Ok? ==>
            var m := db.memberships[(req.user.value, orgId)];
            && m in db.members && db.members[m].userId == req.user.value && db.members[m].orgId == orgId
            && r.value == OrgContext(orgId, db.orgs[orgId].name, db.orgs[orgId].slug, db.members[m].role))
      && (IsMember(db, req.user.value, orgId) && r.Err? && orgId in db.orgs && db.orgs[orgId].isActive ==>
            required.Some? && r == Err(Forbidden(REQUIRED_ROLE_PREFIX + JoinRoles(required.value))))
  {
    if req.user.None? then Err(Forbidden(USER_NOT_AUTHENTICATED))
    else if OrgIdParam(req.params).None? then Err(Forbidden(ORG_ID_REQUIRED))
    else
      var userId := req.user.value;
      var orgId := OrgIdParam(req.params).value;
      MembershipIndexExact(db, userId, orgId);
      if orgId !in db.orgs then Err(NotFound(ORG_NOT_FOUND))
      else if !db.orgs[orgId].isActive then Err(Forbidden(ORG_INACTIVE))
      else if (userId, orgId) !in db.memberships then Err(Forbidden(NOT_A_MEMBER))
      else
        var m := db.members[db.memberships[(userId, orgId)]];
        assert Authorized(db, userId, orgId, required) <==> RoleAllowed(m.role, required) by {
          if Authorized(db, userId, orgId, required) {
            var k :| k in db.members && db.members[k].userId == userId && db.members[k].orgId == orgId
                     && RoleAllowed(db.members[k].role, required);
            assert db.memberships[(db.members[k].userId, db.members[k].orgId)] == k;
          }
        }
        if required.Some? && |required.value| > 0 && m.role !in required.value then
          Err(Forbidden(REQUIRED_ROLE_PREFIX + JoinRoles(required.value)))
        else
          Ok(OrgContext(orgId, db.orgs[orgId].name, db.orgs[orgId].slug, m.role))
  }

  /** Behind a non-empty role list, only the listed roles get through. */
  lemma GuardEnforcesRoleList(db: OrgDb, req: GuardRequest, roles: seq<OrgRole>)
    requires MembersIndexed(db) && |roles| > 0
    ensures CanActivate(db, req, Some(roles)).Ok? ==> CanActivate(db, req, Some(roles)).value.role in roles
  {
  }

  /** Only owners may change member roles. */
  lemma OnlyOwnersChangeRoles(db: OrgDb, req: GuardRequest)
    requires MembersIndexed(db)
    ensures CanActivate(db, req, Some(UPDATE_MEMBER_ROLE_ROLES)).Ok? ==>
              CanActivate(db, req, Some(UPDATE_MEMBER_ROLE_ROLES)).value.role == OWNER
  {
  }

  /** A plain member is refused on the invite route with the joined role
      names in the message. */
  lemma PlainMemberCannotInvite(db: OrgDb, req: GuardRequest)
    requires MembersIndexed(db) && req.user.Some? && OrgIdParam(req.params).Some?
    requires var orgId := OrgIdParam(req.params).value;
             var key := (req.user.value, orgId);
             orgId in db.orgs && db.orgs[orgId].isActive && key in db.memberships
             && db.members[db.memberships[key]].role == MEMBER
    ensures CanActivate(db, req, Some(INVITE_ROLES)) == Err(Forbidden("Required role: OWNER or ADMIN"))
  {
    assert JoinRoles(INVITE_ROLES) == "OWNER or ADMIN";
    assert MEMBER !in INVITE_ROLES;
    assert REQUIRED_ROLE_PREFIX + JoinRoles(INVITE_ROLES) == "Required role: OWNER or ADMIN";
  }

  /** The creator of an organization passes the guard on every route of it,
      as its owner. */
  lemma CreatorPassesGuard(db: OrgDb, dto: CreateOrgDto, userId: string, newOrgId: string, newMemberId: string,
                           params: Params, required: Option<seq<OrgRole>>)
    requires Valid(db) && newOrgId !in db.orgs && newMemberId !in db.members
    requires Create(db, dto, userId, newOrgId, newMemberId).result.Ok?
    requires OrgIdParam(params) == Some(newOrgId)
    requires required.None? || OWNER in required.value
    ensures var next := Create(db, dto, userId, newOrgId, newMemberId).next;
            CanActivate(next, GuardRequest(Some(userId), params), required)
              == Ok(OrgContext(newOrgId, dto.name, dto.slug, OWNER))
  {
    var next := Create(db, dto, userId, newOrgId, newMemberId).next;
    OrganizationInvariants.CreateKeepsValid(db, dto, userId, newOrgId, newMemberId);
    assert next.members[newMemberId].userId == userId;
    assert Authorized(next, userId, newOrgId, required);
  }

  /** After leaving, the user is refused by the guard of that organization. */
  lemma LeaverIsRefused(db: OrgDb, orgId: string, userId: string, params: Params, required: Option<seq<OrgRole>>)
    requires Valid(db) && LeaveOrganization(db, orgId, userId).result.Ok?
    requires OrgIdParam(params) == Some(orgId)
    ensures var next := LeaveOrganization(db, orgId, userId).next;
            MembersIndexed(next) && CanActivate(next, GuardRequest(Some(userId), params), required).Err?
  {
    OrganizationInvariants.DeleteMemberKeepsValid(db, db.memberships[(userId, orgId)]);
  }

  /** As written, the removal route lets an ADMIN remove an OWNER other than
      themselves whenever a second owner exists: the guard admits the ADMIN
      and the owner-count check passes.  The corrected rule refuses it. */
  lemma AdminRemovesAnotherOwner(db: OrgDb, orgId: string, ownerMember: string, adminMember: string,
                                 params: Params)
    requires Valid(db) && orgId in db.orgs && db.orgs[orgId].isActive
    requires OrgIdParam(params) == Some(orgId)
    requires ownerMember in db.members && db.members[ownerMember].orgId == orgId
    requires db.members[ownerMember].role == OWNER && |Owners(db, orgId)| >= 2
    requires adminMember in db.members && db.members[adminMember].orgId == orgId
    requires db.members[adminMember].role == ADMIN
    ensures var actor := db.members[adminMember].userId;
            && actor != db.members[ownerMember].userId
            && CanActivate(db, GuardRequest(Some(actor), params), Some(REMOVE_MEMBER_ROLES)).Ok?
            && RemoveMember(db, orgId, ownerMember, actor).result.Ok?
            && RemoveMemberIntended(db, orgId, ownerMember, actor).result == Err(Forbidden(OWNER_REMOVES_ONLY_SELF))
  {
    var actor := db.members[adminMember].userId;
    assert db.memberships[(actor, orgId)] == adminMember;
    assert db.memberships[(db.members[ownerMember].userId, orgId)] == ownerMember;
    assert ADMIN in REMOVE_MEMBER_ROLES;
    assert Authorized(db, actor, orgId, Some(REMOVE_MEMBER_ROLES));
  }
}

=== FILE: organization_invariants.dfy ===
/** The schema's invariants and the last-owner rule are preserved by every
    organization operation, and the operations compose as the invitation
    flow intends. */
module OrganizationInvariants {
  import opened Outcomes
  import UsersService
  import CacheKeys
  import opened OrganizationsService

  /** The slug index makes slugs unique across organizations. */
  lemma SlugsAreUnique(db: OrgDb, a: string, b: string)
    requires SlugIndexed(db) && a in db.orgs && b in db.orgs && db.orgs[a].slug == db.orgs[b].slug
    ensures a == b
  {
    assert db.slugs[db.orgs[a].slug] == a;
  }

  lemma DeleteMemberKeepsValid(db: OrgDb, memberId: string)
    requires Valid(db) && memberId in db.members
    ensures Valid(DeleteMember(db, memberId))
  {
    var next := DeleteMember(db, memberId);
    var m := db.members[memberId];
    forall k | k in next.memberships
      ensures next.memberships[k] in next.members
    {
      assert db.members[db.memberships[k]].userId == k.0;
    }
  }

  lemma DeleteInviteKeepsValid(db: OrgDb, inviteId: string)
    requires Valid(db) && inviteId in db.invites
    ensures Valid(DeleteInvite(db, inviteId))
  {
    var next := DeleteInvite(db, inviteId);
    forall t | t in next.inviteTokens
      ensures next.inviteTokens[t] in next.invites
    {
      assert db.invites[db.inviteTokens[t]].token == t;
    }
  }

  lemma InsertOrgKeepsValid(db: OrgDb, org: Organization)
    requires Valid(db) && org.id !in db.orgs && org.slug !in db.slugs
    ensures Valid(InsertOrg(db, org))
  {
  }

  lemma InsertMemberKeepsValid(db: OrgDb, m: Member)
    requires Valid(db) && m.id !in db.members && m.orgId in db.orgs && (m.userId, m.orgId) !in db.memberships
    ensures Valid(InsertMember(db, m))
  {
    var next := InsertMember(db, m);
    forall k | k in next.memberships
      ensures next.memberships[k] in next.members
           && next.members[next.memberships[k]].userId == k.0
           && next.members[next.memberships[k]].orgId == k.1
    {
      if k != (m.userId, m.orgId) {
        assert db.memberships[k] in db.members;
      }
    }
  }

  lemma InsertInviteKeepsValid(db: OrgDb, inv: Invite)
    requires Valid(db) && inv.id !in db.invites && inv.token !in db.inviteTokens && inv.orgId in db.orgs
    ensures Valid(InsertInvite(db, inv))
  {
    var next := InsertInvite(db, inv);
    forall t | t in next.inviteTokens
      ensures next.inviteTokens[t] in next.invites && next.invites[next.inviteTokens[t]].token == t
    {
      if t != inv.token { assert db.inviteTokens[t] in db.invites; }
    }
  }

  /** Owners depend on the membership table alone. */
  lemma OwnersFollowMembers(db: OrgDb, next: OrgDb)
    requires next.members == db.members
    ensures forall o :: Owners(next, o) == Owners(db, o)
  {
  }

  /** Deleting a membership removes exactly that member from the owners. */
  lemma OwnersAfterDelete(db: OrgDb, memberId: string, orgId: string)
    requires memberId in db.members
    ensures Owners(DeleteMember(db, memberId), orgId) == Owners(db, orgId) - {memberId}
  {
  }

  lemma OwnersAfterInsert(db: OrgDb, m: Member, orgId: string)
    ensures Owners(db, orgId) - {m.id} <= Owners(InsertMember(db, m), orgId)
    ensures m.role == OWNER && m.orgId == orgId ==> m.id in Owners(InsertMember(db, m), orgId)
  {
  }

  lemma OwnersAfterRoleChange(db: OrgDb, memberId: string, role: OrgRole, orgId: string)
    requires memberId in db.members
    ensures var next := db.(members := db.members[memberId := db.members[memberId].(role := role)]);
            Owners(next, orgId) ==
              if role == OWNER && db.members[memberId].orgId == orgId then Owners(db, orgId) + {memberId}
              else Owners(db, orgId) - {memberId}
  {
  }

  /** Taking one owner away from a set of at least two leaves an owner. */
  lemma OneLessStillSome(owners: set<string>, m: string)
    requires |owners| >= 2
    ensures owners - {m} != {}
  {
    if m in owners {
      assert |owners - {m}| == |owners| - 1;
    } else {
      assert owners - {m} == owners;
    }
  }

  /** Removing a member: the organization never loses its last owner. */
  lemma RemoveMemberKeepsInvariants(db: OrgDb, orgId: string, memberId: string, actor: string)
    requires Valid(db) && EveryOrgHasOwner(db)
    ensures var r := RemoveMember(db, orgId, memberId, actor);
            Valid(r.next) && EveryOrgHasOwner(r.next)
  {
    var r := RemoveMember(db, orgId, memberId, actor);
    if r.result.Ok? {
      DeleteMemberKeepsValid(db, memberId);
      forall o | o in r.next.orgs ensures Owners(r.next, o) != {} {
        OwnersAfterDelete(db, memberId, o);
        if memberId in Owners(db, o) {
          OneLessStillSome(Owners(db, o), memberId);
        } else {
          assert Owners(db, o) - {memberId} == Owners(db, o);
        }
      }
    }
  }

  /** The corrected removal keeps the same invariants. */
  lemma RemoveMemberIntendedKeepsInvariants(db: OrgDb, orgId: string, memberId: string, actor: string)
    requires Valid(db) && EveryOrgHasOwner(db)
    ensures var r := RemoveMemberIntended(db, orgId, memberId, actor);
            Valid(r.next) && EveryOrgHasOwner(r.next)
  {
    RemoveMemberIntendedIsStricter(db, orgId, memberId, actor);
    RemoveMemberKeepsInvariants(db, orgId, memberId, actor);
  }

  lemma SetRoleKeepsValid(db: OrgDb, memberId: string, role: OrgRole)
    requires Valid(db) && memberId in db.members
    ensures Valid(db.(members := db.members[memberId := db.members[memberId].(role := role)]))
  {
    var next := db.(members := db.members[memberId := db.members[memberId].(role := role)]);
    forall k | k in next.memberships
      ensures next.memberships[k] in next.members
           && next.members[next.memberships[k]].userId == k.0
           && next.members[next.memberships[k]].orgId == k.1
    {
      assert db.memberships[k] in db.members;
    }
  }

  /** Changing a role: demotion of the last owner never goes through. */
  lemma UpdateMemberRoleKeepsInvariants(db: OrgDb, orgId: string, memberId: string, role: OrgRole, actor: string)
    requires Valid(db) && EveryOrgHasOwner(db)
    ensures var r := UpdateMemberRole(db, orgId, memberId, role, actor);
            Valid(r.next) && EveryOrgHasOwner(r.next)
  {
    var r := UpdateMemberRole(db, orgId, memberId, role, actor);
    if r.result.Ok? {
      SetRoleKeepsValid(db, memberId, role);
      forall o | o in r.next.orgs ensures Owners(r.next, o) != {} {
        OwnersAfterRoleChange(db, memberId, role, o);
        if role == OWNER && db.members[memberId].orgId == o {
        } else if memberId in Owners(db, o) {
          OneLessStillSome(Owners(db, o), memberId);
        } else {
          assert Owners(db, o) - {memberId} == Owners(db, o);
        }
      }
    }
  }

  /** Leaving: the last owner cannot leave. */
  lemma LeaveKeepsInvariants(db: OrgDb, orgId: string, userId: string)
    requires Valid(db) && EveryOrgHasOwner(db)
    ensures var r := LeaveOrganization(db, orgId, userId);
            Valid(r.next) && EveryOrgHasOwner(r.next)
  {
    var r := LeaveOrganization(db, orgId, userId);
    if r.result.Ok? {
      var id := db.memberships[(userId, orgId)];
      DeleteMemberKeepsValid(db, id);
      forall o | o in r.next.orgs ensures Owners(r.next, o) != {} {
        OwnersAfterDelete(db, id, o);
        if id in Owners(db, o) {
          OneLessStillSome(Owners(db, o), id);
        } else {
          assert Owners(db, o) - {id} == Owners(db, o);
        }
      }
    }
  }

  lemma CreateKeepsValid(db: OrgDb, dto: CreateOrgDto, userId: string, newOrgId: string, newMemberId: string)
    requires Valid(db) && newOrgId !in db.orgs && newMemberId !in db.members
    ensures Valid(Create(db, dto, userId, newOrgId, newMemberId).next)
  {
    var r := Create(db, dto, userId, newOrgId, newMemberId);
    if r.result.Ok? {
      var org := Organization(newOrgId, dto.name, dto.slug, dto.description, true);
      InsertOrgKeepsValid(db, org);
      InsertMemberKeepsValid(InsertOrg(db, org), Member(newMemberId, userId, newOrgId, OWNER));
    }
  }

  lemma CreateKeepsInvariants(db: OrgDb, dto: CreateOrgDto, userId: string, newOrgId: string, newMemberId: string)
    requires Valid(db) && EveryOrgHasOwner(db) && newOrgId !in db.orgs && newMemberId !in db.members
    ensures var r := Create(db, dto, userId, newOrgId, newMemberId);
            Valid(r.next) && EveryOrgHasOwner(r.next)
  {
    var r := Create(db, dto, userId, newOrgId, newMemberId);
    CreateKeepsValid(db, dto, userId, newOrgId, newMemberId);
    if r.result.Ok? {
      var org := Organization(newOrgId, dto.name, dto.slug, dto.description, true);
      var owner := Member(newMemberId, userId, newOrgId, OWNER);
      var withOrg := InsertOrg(db, org);
      OwnersFollowMembers(db, withOrg);
      forall o | o in r.next.orgs ensures Owners(r.next, o) != {} {
        OwnersAfterInsert(withOrg, owner, o);
        if o != newOrgId {
          var m :| m in Owners(db, o);
        }
      }
    }
  }

  lemma UpdateKeepsInvariants(db: OrgDb, id: string, dto: UpdateOrgDto)
    requires Valid(db) && EveryOrgHasOwner(db)
    ensures var r := Update(db, id, dto);
            Valid(r.next) && EveryOrgHasOwner(r.next) && r.next.slugs == db.slugs
  {
    var r := Update(db, id, dto);
    OwnersFollowMembers(db, r.next);
  }

  lemma InviteMemberKeepsInvariants(db: OrgDb, orgId: string, dto: InviteDto, actor: string,
                                    now: int, newInviteId: string, newToken: string)
    requires Valid(db) && EveryOrgHasOwner(db) && newInviteId !in db.invites && newToken !in db.inviteTokens
    ensures var r := InviteMember(db, orgId, dto, actor, now, newInviteId, newToken);
            Valid(r.next) && EveryOrgHasOwner(r.next)
  {
    var r := InviteMember(db, orgId, dto, actor, now, newInviteId, newToken);
    if r.result.Ok? {
      InsertInviteKeepsValid(db, r.result.value);
    }
    OwnersFollowMembers(db, r.next);
  }

  lemma AcceptInviteKeepsInvariants(db: OrgDb, token: string, userId: string, now: int, newMemberId: string)
    requires Valid(db) && EveryOrgHasOwner(db) && newMemberId !in db.members
    ensures var r := AcceptInvite(db, token, userId, now, newMemberId);
            Valid(r.next) && EveryOrgHasOwner(r.next)
  {
    var r := AcceptInvite(db, token, userId, now, newMemberId);
    TokenIndexExact(db, token);
    if token in db.inviteTokens {
      var inv := db.invites[db.inviteTokens[token]];
      if r.result.Ok? {
        var m := Member(newMemberId, userId, inv.orgId, inv.role);
        MembershipIndexExact(db, userId, inv.orgId);
        InsertMemberKeepsValid(db, m);
        DeleteInviteKeepsValid(InsertMember(db, m), inv.id);
        forall o | o in r.next.orgs ensures Owners(r.next, o) != {} {
          OwnersAfterInsert(db, m, o);
          var x :| x in Owners(db, o);
        }
      } else if inv.expiresAt < now {
        DeleteInviteKeepsValid(db, inv.id);
        OwnersFollowMembers(db, r.next);
      }
    }
  }

  lemma CancelInviteKeepsInvariants(db: OrgDb, orgId: string, inviteId: string)
    requires Valid(db) && EveryOrgHasOwner(db)
    ensures var r := CancelInvite(db, orgId, inviteId);
            Valid(r.next) && EveryOrgHasOwner(r.next)
  {
    var r := CancelInvite(db, orgId, inviteId);
    if r.result.Ok? {
      DeleteInviteKeepsValid(db, inviteId);
    }
    OwnersFollowMembers(db, r.next);
  }

  /** The round trip of an invitation: the invited user can accept it up
      to and including its expiry instant, joining with the invited role. */
  lemma InviteThenAccept(db: OrgDb, orgId: string, dto: InviteDto, actor: string, now: int,
                         newInviteId: string, newToken: string, userId: string, later: int, newMemberId: string)
    requires Valid(db) && newInviteId !in db.invites && newToken !in db.inviteTokens
    requires InviteMember(db, orgId, dto, actor, now, newInviteId, newToken).result.Ok?
    requires userId in db.users.byId && db.users.byId[userId].email == dto.email
    requires newMemberId !in db.members
    ensures var inv := InviteMember(db, orgId, dto, actor, now, newInviteId, newToken);
            var acc := AcceptInvite(inv.next, newToken, userId, later, newMemberId);
            && (acc.result.Ok? <==> later <= now + INVITE_DAYS * CacheKeys.SECONDS_PER_DAY)
            && (acc.result.Ok? ==> acc.result.value.role == dto.role.GetOr(MEMBER)
                                   && acc.result.value.orgId == orgId
                                   && acc.next.invites == db.invites)
  {
    var inv := InviteMember(db, orgId, dto, actor, now, newInviteId, newToken);
    InviteMemberKeepsValid(db, orgId, dto, actor, now, newInviteId, newToken);
    assert TokenIssued(inv.next, newToken) by {
      assert inv.next.invites[newInviteId].token == newToken;
    }
    assert inv.next.inviteTokens[newToken] == newInviteId;
  }

  /** `Valid` alone is preserved by a successful invitation. */
  lemma InviteMemberKeepsValid(db: OrgDb, orgId: string, dto: InviteDto, actor: string,
                               now: int, newInviteId: string, newToken: string)
    requires Valid(db) && newInviteId !in db.invites && newToken !in db.inviteTokens
    ensures Valid(InviteMember(db, orgId, dto, actor, now, newInviteId, newToken).next)
  {
    var r := InviteMember(db, orgId, dto, actor, now, newInviteId, newToken);
    if r.result.Ok? {
      InsertInviteKeepsValid(db, r.result.value);
    }
  }

  /** A second invitation for the same address while the first is in force
      is refused. */
  lemma SecondInviteConflicts(db: OrgDb, orgId: string, dto: InviteDto, actor: string, now: int,
                              newInviteId: string, newToken: string,
                              dto2: InviteDto, later: int, id2: string, token2: string)
    requires Valid(db) && newInviteId !in db.invites && newToken !in db.inviteTokens
    requires InviteMember(db, orgId, dto, actor, now, newInviteId, newToken).result.Ok?
    requires var s1 := InviteMember(db, orgId, dto, actor, now, newInviteId, newToken).next;
             id2 !in s1.invites && token2 !in s1.inviteTokens
    requires dto2.email == dto.email && later < now + INVITE_DAYS * CacheKeys.SECONDS_PER_DAY
    ensures var s1 := InviteMember(db, orgId, dto, actor, now, newInviteId, newToken).next;
            InviteMember(s1, orgId, dto2, actor, later, id2, token2).result == Err(Conflict(ACTIVE_INVITE_EXISTS))
  {
    var s1 := InviteMember(db, orgId, dto, actor, now, newInviteId, newToken).next;
    InviteMemberKeepsValid(db, orgId, dto, actor, now, newInviteId, newToken);
    assert Pending(s1.invites[newInviteId], orgId, later);
    if IsMemberByEmail(s1, orgId, dto.email) {
      assert IsMemberByEmail(db, orgId, dto.email);
    }
  }

  /** At its expiry instant an invitation can still be accepted (it is
      not cleaned up as expired), yet it is no longer listed as pending and
      no longer blocks a new invitation for the same address. */
  lemma ExpiryInstantIsInBetween(db: OrgDb, inviteId: string, now: int, userId: string, newMemberId: string)
    requires Valid(db) && inviteId in db.invites && db.invites[inviteId].expiresAt == now
    requires newMemberId !in db.members
    ensures var inv := db.invites[inviteId];
      && !Pending(inv, inv.orgId, now)
      && (ActiveInviteExists(db, inv.orgId, inv.email, now) ==>
            exists j :: j in db.invites && j != inviteId && Pending(db.invites[j], inv.orgId, now))
      && AcceptInvite(db, inv.token, userId, now, newMemberId).result != Err(Forbidden(INVITE_EXPIRED))
      && (AcceptInvite(db, inv.token, userId, now, newMemberId).result.Err? ==>
            inviteId in AcceptInvite(db, inv.token, userId, now, newMemberId).next.invites)
  {
    var inv := db.invites[inviteId];
    assert TokenIssued(db, inv.token);
  }
}

=== FILE: organizations_service.dfy ===
/** Organizations, their memberships and their invitations, as a state
    machine over four tables.  The unique indexes of the schema (slug,
    the (user, organization) pair of a membership, the invite token) are
    kept as index maps next to the tables, and `Valid` says they agree.
    The invite token, the ids of new rows and the clock are parameters. */
module OrganizationsService {
  import opened Outcomes
  import UsersService
  import CacheKeys

  datatype OrgRole = OWNER | ADMIN | MEMBER

  datatype Organization = Organization(id: string, name: string, slug: string,
                                       description: Option<string>, isActive: bool)
  datatype Member = Member(id: string, userId: string, orgId: string, role: OrgRole)
  datatype Invite = Invite(id: string, orgId: string, email: string, role: OrgRole,
                           token: string, expiresAt: int, createdAt: int)

  datatype OrgDb = OrgDb(
    users: UsersService.UserTable,
    orgs: map<string, Organization>,
    slugs: map<string, string>,
    members: map<string, Member>,
    memberships: map<(string, string), string>,
    invites: map<string, Invite>,
    inviteTokens: map<string, string>)

  datatype CreateOrgDto = CreateOrgDto(name: string, slug: string, description: Option<string>)
  datatype UpdateOrgDto = UpdateOrgDto(name: Option<string>, description: Option<string>, isActive: Option<bool>)
  datatype InviteDto = InviteDto(email: string, role: Option<OrgRole>)

  /** Invitations are valid for this many days. */
  const INVITE_DAYS: int := 7

  const ORG_NOT_FOUND: string := "Organization not found"
  const SLUG_TAKEN: string := "Organization with this slug already exists"
  const ALREADY_MEMBER: string := "User is already a member of this organization"
  const ACTIVE_INVITE_EXISTS: string := "An active invite already exists for this email"
  const INVITE_NOT_FOUND: string := "Invite not found"
  const INVITE_EXPIRED: string := "Invite has expired"
  const EMAIL_MISMATCH: string := "This invite was sent to a different email address"
  const MEMBER_NOT_FOUND: string := "Member not found"
  const MEMBER_OF_OTHER_ORG: string := "Member does not belong to this organization"
  const LAST_OWNER_REMOVE: string := "Cannot remove the last owner. Transfer ownership first."
  const LAST_OWNER_DEMOTE: string := "Cannot demote the last owner. Promote another member to owner first."
  const NOT_A_MEMBER: string := "You are not a member of this organization"
  const LAST_OWNER_LEAVE: string := "Cannot leave as the last owner. Transfer ownership or delete the organization."
  const INVITE_OF_OTHER_ORG: string := "Invite does not belong to this organization"
  /** The store's own error when the (user, organization) unique index is violated. */
  const MEMBERSHIP_UNIQUE: string := "Unique constraint failed on the fields: (`userId`,`organizationId`)"

  // ---------------------------------------------------------------- invariants

  predicate SlugIndexed(db: OrgDb) {
    && (forall s :: s in db.slugs ==> db.slugs[s] in db.orgs && db.orgs[db.slugs[s]].slug == s)
    && (forall o :: o in db.orgs ==>
          db.orgs[o].id == o && db.orgs[o].slug in db.slugs && db.slugs[db.orgs[o].slug] == o)
  }

  predicate MembersIndexed(db: OrgDb) {
    && (forall k :: k in db.memberships ==>
          db.memberships[k] in db.members
          && db.members[db.memberships[k]].userId == k.0
          && db.members[db.memberships[k]].orgId == k.1)
    && (forall m :: m in db.members ==>
          db.members[m].id == m
          && db.members[m].orgId in db.orgs
          && (db.members[m].userId, db.members[m].orgId) in db.memberships
          && db.memberships[(db.members[m].userId, db.members[m].orgId)] == m)
  }

  predicate InvitesIndexed(db: OrgDb) {
    && (forall t :: t in db.inviteTokens ==>
          db.inviteTokens[t] in db.invites && db.invites[db.inviteTokens[t]].token == t)
    && (forall i :: i in db.invites ==>
          db.invites[i].id == i
          && db.invites[i].orgId in db.orgs
          && db.invites[i].token in db.inviteTokens
          && db.inviteTokens[db.invites[i].token] == i)
  }

  /** The referential and uniqueness guarantees of the schema. */
  predicate Valid(db: OrgDb) {
    UsersService.TableValid(db.users) && SlugIndexed(db) && MembersIndexed(db) && InvitesIndexed(db)
  }

  // ---------------------------------------------------------------- queries

  /** The members of an organization. */
  function Members(db: OrgDb, orgId: string): (r: set<string>) {
    set m | m in db.members && db.members[m].orgId == orgId
  }

  /** The members of an organization whose role is OWNER. */
  function Owners(db: OrgDb, orgId: string): (r: set<string>) {
    set m | m in db.members && db.members[m].orgId == orgId && db.members[m].role == OWNER
  }

  /** Every organization keeps at least one owner. */
  predicate EveryOrgHasOwner(db: OrgDb) {
    forall o :: o in db.orgs ==> Owners(db, o) != {}
  }

  /** Some organization already uses this slug (stated without the index). */
  predicate SlugTaken(db: OrgDb, slug: string) {
    exists o :: o in db.orgs && db.orgs[o].slug == slug
  }

  /** Some member of the organization is the user with this e-mail address
      (stated without the indexes). */
  predicate IsMemberByEmail(db: OrgDb, orgId: string, email: string) {
    exists m :: m in db.members && db.members[m].orgId == orgId
      && db.members[m].userId in db.users.byId && db.users.byId[db.members[m].userId].email == email
  }

  /** The user is a member of the organization (stated without the index). */
  predicate IsMember(db: OrgDb, userId: string, orgId: string) {
    exists m :: m in db.members && db.members[m].userId == userId && db.members[m].orgId == orgId
  }

  /** An invitation still in force at `now`: expiry strictly in the future. */
  predicate Pending(inv: Invite, orgId: string, now: int) {
    inv.orgId == orgId && inv.expiresAt > now
  }

  predicate ActiveInviteExists(db: OrgDb, orgId: string, email: string, now: int) {
    exists i :: i in db.invites && Pending(db.invites[i], orgId, now) && db.invites[i].email == email
  }

  /** Some invitation carries this token (stated without the index). */
  predicate TokenIssued(db: OrgDb, token: string) {
    exists i :: i in db.invites && db.invites[i].token == token
  }

  lemma MembershipIndexExact(db: OrgDb, userId: string, orgId: string)
    requires MembersIndexed(db)
    ensures (userId, orgId) in db.memberships <==> IsMember(db, userId, orgId)
  {
    if IsMember(db, userId, orgId) {
      var m :| m in db.members && db.members[m].userId == userId && db.members[m].orgId == orgId;
      assert (db.members[m].userId, db.members[m].orgId) in db.memberships;
    }
  }

  lemma TokenIndexExact(db: OrgDb, token: string)
    requires InvitesIndexed(db)
    ensures token in db.inviteTokens <==> TokenIssued(db, token)
  {
    if TokenIssued(db, token) {
      var i :| i in db.invites && db.invites[i].token == token;
      assert db.invites[i].token in db.inviteTokens;
    }
  }

  // ---------------------------------------------------------------- writes

  /** Adds an organization row together with its slug index entry. */
  function InsertOrg(db: OrgDb, org: Organization): (r: OrgDb)
    ensures r.orgs == db.orgs[org.id := org]
    ensures r.members == db.members && r.invites == db.invites && r.users == db.users
  {
    db.(orgs := db.orgs[org.id := org], slugs := db.slugs[org.slug := org.id])
  }

  /** Adds a membership row together with its (user, organization) index entry. */
  function InsertMember(db: OrgDb, m: Member): (r: OrgDb)
    ensures r.members == db.members[m.id := m]
    ensures r.orgs == db.orgs && r.invites == db.invites && r.users == db.users
  {
    db.(members := db.members[m.id := m], memberships := db.memberships[(m.userId, m.orgId) := m.id])
  }

  /** Adds an invitation row together with its token index entry. */
  function InsertInvite(db: OrgDb, inv: Invite): (r: OrgDb)
    ensures r.invites == db.invites[inv.id := inv]
    ensures r.orgs == db.orgs && r.members == db.members && r.users == db.users
  {
    db.(invites := db.invites[inv.id := inv], inviteTokens := db.inviteTokens[inv.token := inv.id])
  }

  /** Removes one membership row together with its index entry. */
  function DeleteMember(db: OrgDb, memberId: string): (r: OrgDb)
    requires memberId in db.members
    ensures r.members == db.members - {memberId}
    ensures r.orgs == db.orgs && r.invites == db.invites && r.users == db.users
  {
    var m := db.members[memberId];
    db.(members := db.members - {memberId}, memberships := db.memberships - {(m.userId, m.orgId)})
  }

  /** Removes one invitation together with its token index entry. */
  function DeleteInvite(db: OrgDb, inviteId: string): (r: OrgDb)
    requires inviteId in db.invites
    ensures r.invites == db.invites - {inviteId}
    ensures r.orgs == db.orgs && r.members == db.members && r.users == db.users
  {
    db.(invites := db.invites - {inviteId}, inviteTokens := db.inviteTokens - {db.invites[inviteId].token})
  }

  // ---------------------------------------------------------------- operations

  /** Creates an organization with the caller as its single OWNER, unless
      the slug is taken. */
  function Create(db: OrgDb, dto: CreateOrgDto, userId: string, newOrgId: string, newMemberId: string)
    : (r: Step<OrgDb, Organization>)
    requires Valid(db) && newOrgId !in db.orgs && newMemberId !in db.members
    ensures r.result.Ok? <==> !SlugTaken(db, dto.slug)
    ensures r.result.Err? ==> r == Step(db, Err(Conflict(SLUG_TAKEN)))
    ensures r.result.Ok? ==>
      && r.result.value == Organization(newOrgId, dto.name, dto.slug, dto.description, true)
      && r.next.orgs == db.orgs[newOrgId := r.result.value]
      && Members(r.next, newOrgId) == {newMemberId}
      && r.next.members[newMemberId] == Member(newMemberId, userId, newOrgId, OWNER)
      && r.next.members - {newMemberId} == db.members
      && r.next.invites == db.invites
  {
    if dto.slug in db.slugs then
      Step(db, Err(Conflict(SLUG_TAKEN)))
    else
      var org := Organization(newOrgId, dto.name, dto.slug, dto.description, true);
      var owner := Member(newMemberId, userId, newOrgId, OWNER);
      var next := InsertMember(InsertOrg(db, org), owner);
      Step(next, Ok(org))
  }

  /** Writes the fields present in the update; the slug never changes. */
  function Update(db: OrgDb, id: string, dto: UpdateOrgDto): (r: Step<OrgDb, Organization>)
    ensures id !in db.orgs ==> r == Step(db, Err(NotFound(ORG_NOT_FOUND)))
    ensures id in db.orgs ==>
      && r.result.Ok?
      && r.next == db.(orgs := db.orgs[id := r.result.value])
      && r.result.value.id == db.orgs[id].id
      && r.result.value.slug == db.orgs[id].slug
      && (dto.name.Some? ==> r.result.value.name == dto.name.value)
      && (dto.name.None? ==> r.result.value.name == db.orgs[id].name)
      && (dto.description.Some? ==> r.result.value.description == dto.description)
      && (dto.description.None? ==> r.result.value.description == db.orgs[id].description)
      && (dto.isActive.Some? ==> r.result.value.isActive == dto.isActive.value)
      && (dto.isActive.None? ==> r.result.value.isActive == db.orgs[id].isActive)
  {
    if id !in db.orgs then
      Step(db, Err(NotFound(ORG_NOT_FOUND)))
    else
      var o := db.orgs[id];
      var updated := o.(name := dto.name.GetOr(o.name),
                        description := if dto.description.Some? then dto.description else o.description,
                        isActive := dto.isActive.GetOr(o.isActive));
      Step(db.(orgs := db.orgs[id := updated]), Ok(updated))
  }

  /** Invites an e-mail address into an organization for seven days.
      Refused when the organization is missing, when the address belongs
      to a user who is already a member, and when an invitation for the
      address is still in force. */
  function InviteMember(db: OrgDb, orgId: string, dto: InviteDto, invitedBy: string,
                        now: int, newInviteId: string, newToken: string): (r: Step<OrgDb, Invite>)
    requires Valid(db) && newInviteId !in db.invites && newToken !in db.inviteTokens
    ensures orgId !in db.orgs ==> r == Step(db, Err(NotFound(ORG_NOT_FOUND)))
    ensures orgId in db.orgs && IsMemberByEmail(db, orgId, dto.email) ==>
              r == Step(db, Err(Conflict(ALREADY_MEMBER)))
    ensures orgId in db.orgs && !IsMemberByEmail(db, orgId, dto.email) && ActiveInviteExists(db, orgId, dto.email, now) ==>
              r == Step(db, Err(Conflict(ACTIVE_INVITE_EXISTS)))
    ensures r.result.Ok? <==>
              orgId in db.orgs && !IsMemberByEmail(db, orgId, dto.email) && !ActiveInviteExists(db, orgId, dto.email, now)
    ensures r.result.Ok? ==>
      && r.result.value == Invite(newInviteId, orgId, dto.email, dto.role.GetOr(MEMBER), newToken,
                                  now + INVITE_DAYS * CacheKeys.SECONDS_PER_DAY, now)
      && r.next.invites == db.invites[newInviteId := r.result.value]
      && r.next.orgs == db.orgs && r.next.members == db.members && r.next.users == db.users
  {
    if orgId !in db.orgs then
      Step(db, Err(NotFound(ORG_NOT_FOUND)))
    else if dto.email in db.users.byEmail && (db.users.byEmail[dto.email], orgId) in db.memberships then
      var uid := db.users.byEmail[dto.email];
      var m := db.memberships[(uid, orgId)];
      assert db.members[m].userId == uid;
      Step(db, Err(Conflict(ALREADY_MEMBER)))
    else if ActiveInviteExists(db, orgId, dto.email, now) then
      assert !IsMemberByEmail(db, orgId, dto.email) by { NoMemberByEmail(db, orgId, dto.email); }
      Step(db, Err(Conflict(ACTIVE_INVITE_EXISTS)))
    else
      assert !IsMemberByEmail(db, orgId, dto.email) by { NoMemberByEmail(db, orgId, dto.email); }
      var inv := Invite(newInviteId, orgId, dto.email, dto.role.GetOr(MEMBER), newToken,
                        now + INVITE_DAYS * CacheKeys.SECONDS_PER_DAY, now);
      Step(InsertInvite(db, inv), Ok(inv))
  }

  /** The index lookup of `InviteMember` finds every member with the address. */
  lemma NoMemberByEmail(db: OrgDb, orgId: string, email: string)
    requires Valid(db)
    requires !(email in db.users.byEmail && (db.users.byEmail[email], orgId) in db.memberships)
    ensures !IsMemberByEmail(db, orgId, email)
  {
  }

  /** Accepts an invitation on behalf of a signed-in user.  An expired
      invitation is deleted before the refusal; a mismatched address leaves
      it in place.  Membership creation and invitation deletion happen in
      one transaction, so a duplicate membership changes nothing. */
  function AcceptInvite(db: OrgDb, token: string, userId: string, now: int, newMemberId: string)
    : (r: Step<OrgDb, Member>)
    requires Valid(db) && newMemberId !in db.members
    ensures !TokenIssued(db, token) ==> r == Step(db, Err(NotFound(INVITE_NOT_FOUND)))
    ensures TokenIssued(db, token) ==>
      var inv := db.invites[db.inviteTokens[token]];
      && inv.token == token
      && (inv.expiresAt < now ==>
            r == Step(DeleteInvite(db, inv.id), Err(Forbidden(INVITE_EXPIRED))))
      && (inv.expiresAt >= now && userId !in db.users.byId ==>
            r == Step(db, Err(NotFound(UsersService.USER_NOT_FOUND))))
      && (inv.expiresAt >= now && userId in db.users.byId && db.users.byId[userId].email != inv.email ==>
            r == Step(db, Err(Forbidden(EMAIL_MISMATCH))))
      && (r.result.Ok? <==>
            inv.expiresAt >= now && userId in db.users.byId && db.users.byId[userId].email == inv.email
            && !IsMember(db, userId, inv.orgId))
      && (r.result.Ok? ==>
            && r.result.value == Member(newMemberId, userId, inv.orgId, inv.role)
            && r.next.members == db.members[newMemberId := r.result.value]
            && r.next.invites == db.invites - {inv.id}
            && r.next.orgs == db.orgs)
      && (r.result.Err? && r.result.error.StoreFailure? ==> r.next == db)
  {
    TokenIndexExact(db, token);
    if token !in db.inviteTokens then
      Step(db, Err(NotFound(INVITE_NOT_FOUND)))
    else
      var inv := db.invites[db.inviteTokens[token]];
      if inv.expiresAt < now then
        Step(DeleteInvite(db, inv.id), Err(Forbidden(INVITE_EXPIRED)))
      else if userId !in db.users.byId then
        Step(db, Err(NotFound(UsersService.USER_NOT_FOUND)))
      else if db.users.byId[userId].email != inv.email then
        Step(db, Err(Forbidden(EMAIL_MISMATCH)))
      else
        MembershipIndexExact(db, userId, inv.orgId);
        if (userId, inv.orgId) in db.memberships then
          Step(db, Err(StoreFailure(MEMBERSHIP_UNIQUE)))
        else
          var m := Member(newMemberId, userId, inv.orgId, inv.role);
          Step(DeleteInvite(InsertMember(db, m), inv.id), Ok(m))
  }

  /** Removes a member by membership id; the last owner cannot be removed. */
  function RemoveMember(db: OrgDb, orgId: string, memberId: string, removedBy: string): (r: Step<OrgDb, ()>)
    ensures memberId !in db.members ==> r == Step(db, Err(NotFound(MEMBER_NOT_FOUND)))
    ensures memberId in db.members && db.members[memberId].orgId != orgId ==>
              r == Step(db, Err(Forbidden(MEMBER_OF_OTHER_ORG)))
    ensures r.result.Ok? <==>
              memberId in db.members && db.members[memberId].orgId == orgId
              && (db.members[memberId].role == OWNER ==> |Owners(db, orgId)| >= 2)
    ensures r.result.Err? ==> r.next == db
    ensures r.result.Ok? ==> r.next.members == db.members - {memberId} && r.next.orgs == db.orgs
  {
    if memberId !in db.members then
      Step(db, Err(NotFound(MEMBER_NOT_FOUND)))
    else if db.members[memberId].orgId != orgId then
      Step(db, Err(Forbidden(MEMBER_OF_OTHER_ORG)))
    else if db.members[memberId].role == OWNER && |Owners(db, orgId)| <= 1 then
      Step(db, Err(Forbidden(LAST_OWNER_REMOVE)))
    else
      Step(DeleteMember(db, memberId), Ok(()))
  }

  /** The refusal `RemoveMemberIntended` gives when someone other than the
      owner tries to remove that owner; the code has no such message. */
  const OWNER_REMOVES_ONLY_SELF: string := "An owner can only be removed by themselves"

  /** `RemoveMember` with the owner rule its own comment states: an owner can
      be removed only by that same user, and only while another owner
      remains.  The code checks the owner count alone. */
  function RemoveMemberIntended(db: OrgDb, orgId: string, memberId: string, removedBy: string): (r: Step<OrgDb, ()>)
    ensures memberId !in db.members ==> r == Step(db, Err(NotFound(MEMBER_NOT_FOUND)))
    ensures memberId in db.members && db.members[memberId].orgId != orgId ==>
              r == Step(db, Err(Forbidden(MEMBER_OF_OTHER_ORG)))
    ensures r.result.Ok? <==>
              memberId in db.members && db.members[memberId].orgId == orgId
              && (db.members[memberId].role == OWNER ==>
                    db.members[memberId].userId == removedBy && |Owners(db, orgId)| >= 2)
    ensures r.result.Err? ==> r.next == db
    ensures r.result.Ok? ==> r.next.members == db.members - {memberId} && r.next.orgs == db.orgs
  {
    if memberId !in db.members then
      Step(db, Err(NotFound(MEMBER_NOT_FOUND)))
    else if db.members[memberId].orgId != orgId then
      Step(db, Err(Forbidden(MEMBER_OF_OTHER_ORG)))
    else if db.members[memberId].role == OWNER && |Owners(db, orgId)| <= 1 then
      Step(db, Err(Forbidden(LAST_OWNER_REMOVE)))
    else if db.members[memberId].role == OWNER && db.members[memberId].userId != removedBy then
      Step(db, Err(Forbidden(OWNER_REMOVES_ONLY_SELF)))
    else
      Step(DeleteMember(db, memberId), Ok(()))
  }

  /** Every removal the corrected rule allows, the code allows with the
      same effect; the two differ only on owners removed by someone else. */
  lemma RemoveMemberIntendedIsStricter(db: OrgDb, orgId: string, memberId: string, removedBy: string)
    ensures var fixed := RemoveMemberIntended(db, orgId, memberId, removedBy);
            var code := RemoveMember(db, orgId, memberId, removedBy);
            && (fixed.result.Ok? ==> fixed == code)
            && (fixed != code <==>
                  && memberId in db.members && db.members[memberId].orgId == orgId
                  && db.members[memberId].role == OWNER && |Owners(db, orgId)| >= 2
                  && db.members[memberId].userId != removedBy)
  {
  }

  /** Changes a member's role; demoting the last owner is refused, while
      promotions and OWNER to OWNER are always allowed. */
  function UpdateMemberRole(db: OrgDb, orgId: string, memberId: string, newRole: OrgRole, updatedBy: string)
    : (r: Step<OrgDb, Member>)
    ensures memberId !in db.members ==> r == Step(db, Err(NotFound(MEMBER_NOT_FOUND)))
    ensures memberId in db.members && db.members[memberId].orgId != orgId ==>
              r == Step(db, Err(Forbidden(MEMBER_OF_OTHER_ORG)))
    ensures r.result.Ok? <==>
              memberId in db.members && db.members[memberId].orgId == orgId
              && (db.members[memberId].role == OWNER && newRole != OWNER ==> |Owners(db, orgId)| >= 2)
    ensures r.result.Err? ==> r.next == db
    ensures r.result.Ok? ==>
      && r.result.value == db.members[memberId].(role := newRole)
      && r.next == db.(members := db.members[memberId := r.result.value])
  {
    if memberId !in db.members then
      Step(db, Err(NotFound(MEMBER_NOT_FOUND)))
    else
      var m := db.members[memberId];
      if m.orgId != orgId then
        Step(db, Err(Forbidden(MEMBER_OF_OTHER_ORG)))
      else if m.role == OWNER && newRole != OWNER && |Owners(db, orgId)| <= 1 then
        Step(db, Err(Forbidden(LAST_OWNER_DEMOTE)))
      else
        var updated := m.(role := newRole);
        Step(db.(members := db.members[memberId := updated]), Ok(updated))
  }

  /** The caller leaves an organization; the last owner cannot leave. */
  function LeaveOrganization(db: OrgDb, orgId: string, userId: string): (r: Step<OrgDb, ()>)
    requires Valid(db)
    ensures !IsMember(db, userId, orgId) ==> r == Step(db, Err(NotFound(NOT_A_MEMBER)))
    ensures r.result.Err? ==> r.next == db
    ensures IsMember(db, userId, orgId) ==>
      var m := db.memberships[(userId, orgId)];
      && m in db.members && db.members[m].userId == userId && db.members[m].orgId == orgId
      && (r.result.Ok? <==> (db.members[m].role == OWNER ==> |Owners(db, orgId)| >= 2))
      && (r.result.Ok? ==> r.next.members == db.members - {m} && !IsMember(r.next, userId, orgId))
  {
    MembershipIndexExact(db, userId, orgId);
    if (userId, orgId) !in db.memberships then
      Step(db, Err(NotFound(NOT_A_MEMBER)))
    else
      var id := db.memberships[(userId, orgId)];
      if db.members[id].role == OWNER && |Owners(db, orgId)| <= 1 then
        Step(db, Err(Forbidden(LAST_OWNER_LEAVE)))
      else
        var next := DeleteMember(db, id);
        assert !IsMember(next, userId, orgId) by {
          forall k | k in next.members ensures !(next.members[k].userId == userId && next.members[k].orgId == orgId) {
            assert db.memberships[(db.members[k].userId, db.members[k].orgId)] == k;
          }
        }
        Step(next, Ok(()))
  }

  /** Deletes an invitation of the organization. */
  function CancelInvite(db: OrgDb, orgId: string, inviteId: string): (r: Step<OrgDb, ()>)
    ensures inviteId !in db.invites ==> r == Step(db, Err(NotFound(INVITE_NOT_FOUND)))
    ensures inviteId in db.invites && db.invites[inviteId].orgId != orgId ==>
              r == Step(db, Err(Forbidden(INVITE_OF_OTHER_ORG)))
    ensures r.result.Ok? <==> inviteId in db.invites && db.invites[inviteId].orgId == orgId
    ensures r.result.Err? ==> r.next == db
    ensures r.result.Ok? ==> r.next.invites == db.invites - {inviteId} && r.next.members == db.members
  {
    if inviteId !in db.invites then
      Step(db, Err(NotFound(INVITE_NOT_FOUND)))
    else if db.invites[inviteId].orgId != orgId then
      Step(db, Err(Forbidden(INVITE_OF_OTHER_ORG)))
    else
      Step(DeleteInvite(db, inviteId), Ok(()))
  }

  // ---------------------------------------------------------------- pending invites

  /** Newest first: creation times never increase along the sequence. */
  predicate NewestFirst(s: seq<Invite>) {
    forall i, j :: 0 <= i < j < |s| ==> s[i].createdAt >= s[j].createdAt
  }

  /** No invitation appears twice. */
  predicate DistinctIds(s: seq<Invite>) {
    forall i, j :: 0 <= i < j < |s| ==> s[i].id != s[j].id
  }

  /** Inserts `x` after every invitation at least as new as it. */
  function InsertByNewest(s: seq<Invite>, x: Invite): (r: seq<Invite>)
    requires NewestFirst(s)
    ensures NewestFirst(r)
    ensures multiset(r) == multiset(s) + multiset{x}
  {
    if s == [] then [x]
    else if s[0].createdAt >= x.createdAt then
      var rest := InsertByNewest(s[1..], x);
      NotNewerThanHead(s, x, rest);
      assert s == [s[0]] + s[1..];
      [s[0]] + rest
    else
      [x] + s
  }

  lemma NotNewerThanHead(s: seq<Invite>, x: Invite, rest: seq<Invite>)
    requires NewestFirst(s) && s != [] && s[0].createdAt >= x.createdAt
    requires multiset(rest) == multiset(s[1..]) + multiset{x} && NewestFirst(rest)
    ensures NewestFirst([s[0]] + rest)
  {
    var r := [s[0]] + rest;
    forall i, j | 0 <= i < j < |r| ensures r[i].createdAt >= r[j].createdAt {
      if i == 0 {
        assert r[j] in multiset(rest);
        if r[j] != x {
          assert r[j] in s[1..];
        }
      } else {
        assert r[i] == rest[i - 1] && r[j] == rest[j - 1];
      }
    }
  }

  lemma InsertedMembers(s: seq<Invite>, x: Invite)
    requires NewestFirst(s)
    ensures forall y :: y in InsertByNewest(s, x) <==> y in s || y == x
  {
    var r := InsertByNewest(s, x);
    forall y ensures y in r <==> y in s || y == x {
      assert y in r <==> y in multiset(r);
      assert y in s <==> y in multiset(s);
    }
  }

  /** Inserting an invitation whose id is new keeps the ids distinct. */
  lemma {:induction false} InsertKeepsIdsDistinct(s: seq<Invite>, x: Invite)
    requires NewestFirst(s) && DistinctIds(s)
    requires forall k :: 0 <= k < |s| ==> s[k].id != x.id
    ensures DistinctIds(InsertByNewest(s, x))
  {
    if s != [] && s[0].createdAt >= x.createdAt {
      InsertKeepsIdsDistinct(s[1..], x);
      var rest := InsertByNewest(s[1..], x);
      var r := [s[0]] + rest;
      forall i, j | 0 <= i < j < |r| ensures r[i].id != r[j].id {
        if i == 0 {
          assert r[j] in multiset(rest);
          if r[j] != x {
            assert r[j] in s[1..];
          }
        } else {
          assert r[i] == rest[i - 1] && r[j] == rest[j - 1];
        }
      }
    }
  }

  /** One step of the scan in `GetPendingInvites`: inserting a pending
      invitation whose id is new keeps every scan invariant. */
  lemma InsertPendingStep(db: OrgDb, orgId: string, now: int, r: seq<Invite>, seen: set<string>, id: string)
    requires InvitesIndexed(db) && seen <= db.invites.Keys && id in db.invites && id !in seen
    requires Pending(db.invites[id], orgId, now)
    requires forall x :: x in r ==> x.id in seen && db.invites[x.id] == x && Pending(x, orgId, now)
    requires forall i :: i in seen && Pending(db.invites[i], orgId, now) ==> db.invites[i] in r
    requires NewestFirst(r) && DistinctIds(r)
    ensures var r' := InsertByNewest(r, db.invites[id]);
      && (forall x :: x in r' ==> x.id in seen + {id} && db.invites[x.id] == x && Pending(x, orgId, now))
      && (forall i :: i in seen + {id} && Pending(db.invites[i], orgId, now) ==> db.invites[i] in r')
      && NewestFirst(r') && DistinctIds(r')
  {
    var inv := db.invites[id];
    assert forall k :: 0 <= k < |r| ==> r[k].id != inv.id by {
      forall k | 0 <= k < |r| ensures r[k].id != inv.id { assert r[k] in r; }
    }
    InsertKeepsIdsDistinct(r, inv);
    InsertedMembers(r, inv);
  }

  /** The invitations of an organization still in force at `now`, newest
      first. */
  method GetPendingInvites(db: OrgDb, orgId: string, now: int) returns (r: seq<Invite>)
    requires InvitesIndexed(db)
    ensures forall x :: x in r ==> x.id in db.invites && db.invites[x.id] == x && Pending(x, orgId, now)
    ensures forall i :: i in db.invites && Pending(db.invites[i], orgId, now) ==> db.invites[i] in r
    ensures NewestFirst(r)
    ensures DistinctIds(r)
  {
    r := [];
    var rest := db.invites.Keys;
    ghost var seen: set<string> := {};
    while rest != {}
      invariant rest + seen == db.invites.Keys && rest !! seen
      invariant forall x :: x in r ==> x.id in seen && db.invites[x.id] == x && Pending(x, orgId, now)
      invariant forall i :: i in seen && Pending(db.invites[i], orgId, now) ==> db.invites[i] in r
      invariant NewestFirst(r) && DistinctIds(r)
      decreases |rest|
    {
      var id :| id in rest;
      var inv := db.invites[id];
      if Pending(inv, orgId, now) {
        InsertPendingStep(db, orgId, now, r, seen, id);
        r := InsertByNewest(r, inv);
      }
      rest := rest - {id};
      seen := seen + {id};
    }
  }
}

=== FILE: outcomes.dfy ===
/** Failure-carrying results shared by every service of the model.

    The services signal failure by throwing one of the framework's HTTP
    exceptions; the model returns it as an `Error` value carrying the same
    message.  Several operations change a store and then throw (an expired
    refresh token is deleted before the 401 is raised), so an operation that
    may change state returns a `Step`: the state after the call together with
    its `Result`. */
module Outcomes {

  /** JavaScript's `undefined`/absent value versus a present one. */
  datatype Option<+T> = None | Some(value: T) {

    /** The present value, or `default` when absent (the `??` operator). */
    function GetOr(default: T): (r: T) {
      match this
      case Some(v) => v
      case None => default
    }
  }

  /** The exception classes the services throw.  `StoreFailure` stands for an
      error raised by the database itself (a unique-constraint violation) that
      the service does not catch. */
  datatype Error =
    | Unauthorized(message: string)
    | Forbidden(message: string)
    | NotFound(message: string)
    | Conflict(message: string)
    | StoreFailure(message: string)

  datatype Result<+T> = Ok(value: T) | Err(error: Error)

  /** The state after an operation, and what the operation returned or threw. */
  datatype Step<+S, +T> = Step(next: S, result: Result<T>)
}

=== FILE: shared_utils.dfy ===
/** The pure string helpers shared by the API and the web app: text
    truncation, capitalization (ASCII letters) and the e-mail shape test. */
module SharedUtils {
  import opened Text

  const ELLIPSIS: string := "..."

  // ---------------------------------------------------------------- truncate

  /** `s.slice(0, end)` in JavaScript: a negative end counts back from the
      end of the string, and an end past the string is clamped. */
  function SliceTo(s: string, end: int): (r: string)
    ensures 0 <= end ==> r == s[..if end <= |s| then end else |s|]
    ensures end < 0 ==> r == s[..if |s| + end >= 0 then |s| + end else 0]
  {
    var stop := if end >= 0 then (if end <= |s| then end else |s|)
                else (if |s| + end >= 0 then |s| + end else 0);
    s[..stop]
  }

  /** Leaves short text alone and otherwise cuts it at `length` and appends
      an ellipsis, which does not count toward `length`. */
  function Truncate(s: string, length: int): (r: string)
    ensures |s| <= length ==> r == s
    ensures 0 <= length < |s| ==>
              |r| == length + |ELLIPSIS| && r[..length] == s[..length] && r[length..] == ELLIPSIS
    ensures length < 0 ==>
              r == s[..if |s| + length >= 0 then |s| + length else 0] + ELLIPSIS
  {
    if |s| <= length then s else SliceTo(s, length) + ELLIPSIS
  }

  /** With a non-negative length, truncating twice is truncating once: the
      ellipsis that made the text longer is cut and re-appended. */
  lemma TruncateIdempotent(s: string, length: int)
    requires length >= 0
    ensures Truncate(Truncate(s, length), length) == Truncate(s, length)
  {
    if |s| > length {
      var t := Truncate(s, length);
      assert t[..length] == s[..length];
      assert Truncate(t, length) == t[..length] + ELLIPSIS;
    }
  }

  /** The ellipsis can make the result longer than the input, a negative
      length counts from the end of the text, and even the empty text gets
      an ellipsis when the length is negative. */
  lemma TruncateEdgeCases()
    ensures Truncate("abcd", 3) == "abc..."
    ensures Truncate("abcdef", -2) == "abcd..."
    ensures Truncate("", -1) == "..."
  {
    assert SliceTo("abcd", 3) == "abc";
    assert SliceTo("abcdef", -2) == "abcd";
  }

  // ---------------------------------------------------------------- capitalize

  predicate IsLowerAscii(c: char) { 'a' <= c <= 'z' }
  predicate IsUpperAscii(c: char) { 'A' <= c <= 'Z' }

  function UpperAscii(c: char): (r: char)
    ensures !IsLowerAscii(r)
    ensures IsLowerAscii(c) ==> IsUpperAscii(r) && r as int == c as int - 32
    ensures !IsLowerAscii(c) ==> r == c
  {
    if IsLowerAscii(c) then (c as int - 32) as char else c
  }

  function LowerAscii(c: char): (r: char)
    ensures !IsUpperAscii(r)
    ensures IsUpperAscii(c) ==> IsLowerAscii(r) && r as int == c as int + 32
    ensures !IsUpperAscii(c) ==> r == c
  {
    if IsUpperAscii(c) then (c as int + 32) as char else c
  }

  /** First character upper case, the rest lower case. */
  function Capitalize(s: string): (r: string)
    ensures |r| == |s|
    ensures |s| > 0 ==> !IsLowerAscii(r[0])
    ensures forall i :: 0 < i < |r| ==> !IsUpperAscii(r[i])
    ensures |s| > 0 ==> r[0] == UpperAscii(s[0])
    ensures forall i :: 0 < i < |s| ==> r[i] == LowerAscii(s[i])
  {
    if |s| == 0 then ""
    else [UpperAscii(s[0])] + seq(|s| - 1, i requires 0 <= i < |s| - 1 => LowerAscii(s[i + 1]))
  }

  /** The shape `capitalize` produces. */
  predicate Capitalized(s: string) {
    && (|s| > 0 ==> !IsLowerAscii(s[0]))
    && (forall i :: 0 < i < |s| ==> !IsUpperAscii(s[i]))
  }

  /** `capitalize` changes a string exactly when it is not yet capitalized,
      so applying it twice is applying it once. */
  lemma CapitalizeFixesExactlyCapitalized(s: string)
    ensures Capitalize(s) == s <==> Capitalized(s)
    ensures Capitalized(Capitalize(s))
    ensures Capitalize(Capitalize(s)) == Capitalize(s)
  {
    var c := Capitalize(s);
    if Capitalized(s) && |s| > 0 {
      assert c[0] == s[0];
      forall i | 0 < i < |s| ensures c[i] == s[i] {
        assert c[i] == LowerAscii(s[i]);
      }
    }
    if |c| > 0 {
      var cc := Capitalize(c);
      assert cc[0] == c[0];
      forall i | 0 < i < |c| ensures cc[i] == c[i] {
        assert cc[i] == LowerAscii(c[i]);
      }
    }
  }

  lemma CapitalizeExamples()
    ensures Capitalize("") == ""
    ensures Capitalize("hELLO") == "Hello"
  {
    assert Capitalize("hELLO") == "Hello" by {
      var c := Capitalize("hELLO");
      assert c[0] == 'H' && c[1] == 'e' && c[2] == 'l' && c[3] == 'l' && c[4] == 'o';
    }
  }

  // ---------------------------------------------------------------- isValidEmail

  /** The class `[^\s@]` of the e-mail pattern. */
  predicate Plain(c: char) {
    !IsJsWhitespace(c) && c != '@'
  }

  /** The end of the run of `Plain` characters that starts at `i`. */
  function PlainRun(s: string, i: nat): (j: nat)
    requires i <= |s|
    ensures i <= j <= |s|
    ensures forall k :: i <= k < j ==> Plain(s[k])
    ensures j < |s| ==> !Plain(s[j])
    decreases |s| - i
  {
    if i == |s| || !Plain(s[i]) then i else PlainRun(s, i + 1)
  }

  /** A '.' with at least one character on each side. */
  predicate HasInnerDot(d: string) {
    exists k :: 0 < k < |d| - 1 && d[k] == '.'
  }

  function CountOf(s: string, c: char): (r: nat) {
    if |s| == 0 then 0 else (if s[0] == c then 1 else 0) + CountOf(s[1..], c)
  }

  predicate NoWhitespace(s: string) {
    forall i :: 0 <= i < |s| ==> !IsJsWhitespace(s[i])
  }

  /** The address shape in words: no white space, exactly one '@' with
      something before it, and a dot inside the part after it. */
  predicate EmailShape(s: string) {
    && NoWhitespace(s)
    && CountOf(s, '@') == 1
    && exists a :: 0 < a < |s| && s[a] == '@' && HasInnerDot(s[a + 1..])
  }

  /** Matches `^[^\s@]+@[^\s@]+\.[^\s@]+$`: a run of plain characters, an
      '@', then plain characters up to the end with an inner dot. */
  function IsValidEmail(s: string): (r: bool)
    ensures r <==> EmailShape(s)
  {
    var at := PlainRun(s, 0);
    var ok := 0 < at < |s| && s[at] == '@' && PlainRun(s, at + 1) == |s| && HasInnerDot(s[at + 1..]);
    EmailShapeExact(s);
    ok
  }

  lemma {:induction false} CountOfConcat(a: string, b: string, c: char)
    ensures CountOf(a + b, c) == CountOf(a, c) + CountOf(b, c)
  {
    if |a| > 0 {
      CountOfConcat(a[1..], b, c);
      assert (a + b)[1..] == a[1..] + b;
    } else {
      assert a + b == b;
    }
  }

  lemma {:induction false} CountOfZero(s: string, c: char)
    ensures CountOf(s, c) == 0 <==> c !in s
  {
    if |s| > 0 {
      CountOfZero(s[1..], c);
      assert s == [s[0]] + s[1..];
    }
  }

  /** With an '@' at `a`, there is exactly one '@' iff none sits elsewhere. */
  lemma SingleAt(s: string, a: nat)
    requires a < |s| && s[a] == '@'
    ensures CountOf(s, '@') == 1 <==> forall k :: 0 <= k < |s| && k != a ==> s[k] != '@'
  {
    assert s == s[..a] + [s[a]] + s[a + 1..];
    CountOfConcat(s[..a] + [s[a]], s[a + 1..], '@');
    CountOfConcat(s[..a], [s[a]], '@');
    CountOfZero(s[..a], '@');
    CountOfZero(s[a + 1..], '@');
    if forall k :: 0 <= k < |s| && k != a ==> s[k] != '@' {
      assert '@' !in s[..a] by {
        forall k | 0 <= k < a ensures s[..a][k] != '@' { }
      }
      var after := s[a + 1..];
      assert '@' !in after by {
        forall k | 0 <= k < |after| ensures after[k] != '@' { assert after[k] == s[a + 1 + k]; }
      }
    }
    if CountOf(s, '@') == 1 {
      forall k | 0 <= k < |s| && k != a ensures s[k] != '@' {
        if k < a { assert s[..a][k] == s[k]; } else { assert s[a + 1..][k - a - 1] == s[k]; }
      }
    }
  }

  lemma EmailShapeExact(s: string)
    ensures (var at := PlainRun(s, 0);
             0 < at < |s| && s[at] == '@' && PlainRun(s, at + 1) == |s| && HasInnerDot(s[at + 1..]))
            <==> EmailShape(s)
  {
    var at := PlainRun(s, 0);
    if 0 < at < |s| && s[at] == '@' && PlainRun(s, at + 1) == |s| && HasInnerDot(s[at + 1..]) {
      SingleAt(s, at);
      assert NoWhitespace(s) by {
        forall i | 0 <= i < |s| ensures !IsJsWhitespace(s[i]) {
          if i != at { assert Plain(s[i]); }
        }
      }
    }
    if EmailShape(s) {
      var a :| 0 < a < |s| && s[a] == '@' && HasInnerDot(s[a + 1..]);
      SingleAt(s, a);
      assert forall k :: 0 <= k < |s| && k != a ==> Plain(s[k]);
      assert at == a;
      var end := PlainRun(s, a + 1);
      assert end == |s|;
    }
  }

  lemma IsValidEmailExamples()
    ensures IsValidEmail("a@b.c")
    ensures !IsValidEmail("a@b.")
    ensures !IsValidEmail("a@@b.c")
    ensures !IsValidEmail("a b@c.d")
    ensures !IsValidEmail("@b.c")
  {
    assert "a@b.c"[1] == '@' && "a@b.c"[2..][1] == '.';
    assert "a@b.c"[2..] == "b.c";
    assert CountOf("a@b.c", '@') == 1;
    assert IsJsWhitespace("a b@c.d"[1]);
    assert !NoWhitespace("a b@c.d");
    assert CountOf("a@@b.c", '@') == 2;
    assert CountOf("@b.c", '@') == 1;
    SingleAt("@b.c", 0);
    SingleAt("a@b.", 1);
    assert "a@b."[2..] == "b.";
  }
}

=== FILE: text.dfy ===
/** String facts shared by the cache keys, the cache's prefix scan and the
    helpers that follow JavaScript's notion of white space. */
module Text {

  /** `s` begins with `prefix`. */
  predicate StartsWith(s: string, prefix: string) {
    |prefix| <= |s| && s[..|prefix|] == prefix
  }

  /** The characters JavaScript counts as white space (WhiteSpace and
      LineTerminator of ECMA-262): what `\s` matches in a regular expression
      and what `parseInt` skips before the number. */
  predicate IsJsWhitespace(c: char) {
    var n := c as int;
    n == 0x09 || n == 0x0A || n == 0x0B || n == 0x0C || n == 0x0D || n == 0x20
    || n == 0xA0 || n == 0x1680 || (0x2000 <= n <= 0x200A)
    || n == 0x2028 || n == 0x2029 || n == 0x202F || n == 0x205F
    || n == 0x3000 || n == 0xFEFF
  }

  predicate IsDigit(c: char) {
    '0' <= c <= '9'
  }

  lemma StartsWithConcat(prefix: string, rest: string)
    ensures StartsWith(prefix + rest, prefix)
  {
    assert (prefix + rest)[..|prefix|] == prefix;
  }
}

=== FILE: token_lifecycle.dfy ===
/** Properties of the refresh-token lifecycle that relate several calls:
    single use under rotation, revocation by logout and logout-all, and the
    independence of the blacklist from the user cache. */
module TokenLifecycle {
  import opened Outcomes
  import opened CacheKeys
  import opened CacheService
  import opened UsersService
  import opened UserCacheCoherence
  import opened AuthService

  /** A refresh token works once: after a successful rotation, presenting
      the same token again is rejected, whenever and with whatever new
      random value, and changes nothing. */
  lemma RefreshIsSingleUse(s: AuthState, token: string, cfg: Config, now: int, nextToken: string,
                           cfg2: Config, later: int, nextToken2: string)
    requires AuthValid(s) && nextToken !in s.tokens && nextToken != token
    requires RefreshToken(s, token, cfg, now, nextToken).result.Ok?
    requires var s1 := RefreshToken(s, token, cfg, now, nextToken).next;
             nextToken2 !in s1.tokens && nextToken2 != token
    ensures var s1 := RefreshToken(s, token, cfg, now, nextToken).next;
            var again := RefreshToken(s1, token, cfg2, later, nextToken2);
            && again.next == s1
            && (again.result == Err(Unauthorized(TOKEN_REVOKED)) || again.result == Err(Unauthorized(TOKEN_INVALID)))
  {
    var s1 := RefreshToken(s, token, cfg, now, nextToken).next;
    assert token !in s1.tokens;
  }

  /** The replacement token is accepted exactly until its expiry, which is
      `RefreshDays(cfg)` days after the rotation, provided nobody has
      blacklisted that value. */
  lemma RotatedTokenWorksUntilExpiry(s: AuthState, token: string, cfg: Config, now: int, nextToken: string,
                                     later: int, nextToken2: string)
    requires AuthValid(s) && nextToken !in s.tokens && nextToken != token
    requires RefreshToken(s, token, cfg, now, nextToken).result.Ok?
    requires !Blacklisted(s.users.cache, nextToken)
    requires var s1 := RefreshToken(s, token, cfg, now, nextToken).next;
             nextToken2 !in s1.tokens && nextToken2 != nextToken
    ensures var s1 := RefreshToken(s, token, cfg, now, nextToken).next;
            RefreshToken(s1, nextToken, cfg, later, nextToken2).result.Ok?
            <==> later <= now + RefreshDays(cfg) * SECONDS_PER_DAY
  {
    var s1 := RefreshToken(s, token, cfg, now, nextToken).next;
    var owner := s.tokens[token].userId;
    assert s1.tokens[nextToken].userId == owner;
    assert s1.users.table.byId[owner].isActive;
  }

  /** What logout revokes.  With the cache reachable, the token is refused
      from then on, whoever owned it.  With the cache down the blacklist
      write is lost, and the token survives exactly when its record belongs
      to another user, since only the caller's own record is deleted. */
  lemma LogoutRevokes(s: AuthState, token: string, userId: string, cfg: Config, now: int, nextToken: string)
    requires AuthValid(s) && nextToken !in s.tokens && nextToken != token
    ensures var s1 := Logout(s, token, userId);
      && (s.users.cache.available ==>
            RefreshToken(s1, token, cfg, now, nextToken) == Step(s1, Err(Unauthorized(TOKEN_REVOKED))))
      && (RefreshToken(s1, token, cfg, now, nextToken).result.Ok? <==>
            && !s.users.cache.available
            && token in s.tokens && s.tokens[token].userId != userId
            && now <= s.tokens[token].expiresAt
            && s.users.table.byId[s.tokens[token].userId].isActive)
  {
  }

  /** After logout-all, none of the tokens the user held can be refreshed,
      whether or not the cache was reachable. */
  lemma LogoutAllRevokesEveryToken(s: AuthState, userId: string, token: string, cfg: Config, now: int, nextToken: string)
    requires AuthValid(s) && token in s.tokens && s.tokens[token].userId == userId
    requires var s1 := LogoutAll(s, userId); nextToken !in s1.tokens && nextToken != token
    ensures var s1 := LogoutAll(s, userId);
            var r := RefreshToken(s1, token, cfg, now, nextToken);
            && r.next == s1
            && r.result == (if s.users.cache.available then Err(Unauthorized(TOKEN_REVOKED))
                            else Err(Unauthorized(TOKEN_INVALID)))
  {
    var s1 := LogoutAll(s, userId);
    assert token !in s1.tokens;
    assert token in TokensOf(s.tokens, userId);
    assert RefreshKey(token) in (set t | t in TokensOf(s.tokens, userId) :: RefreshKey(t));
  }

  /** A token issued at login is accepted by an immediate refresh, unless
      its value happens to be blacklisted already. */
  lemma LoginTokenIsRefreshable(s: AuthState, dto: LoginDto, cfg: Config, now: int, nextToken: string,
                                verify: (string, string) -> bool, nextToken2: string)
    requires AuthValid(s) && nextToken !in s.tokens
    requires Login(s, dto, cfg, now, nextToken, verify).result.Ok?
    requires RefreshDays(cfg) >= 0 && !Blacklisted(s.users.cache, nextToken)
    requires var s1 := Login(s, dto, cfg, now, nextToken, verify).next;
             nextToken2 !in s1.tokens && nextToken2 != nextToken
    ensures var s1 := Login(s, dto, cfg, now, nextToken, verify).next;
            RefreshToken(s1, nextToken, cfg, now, nextToken2).result.Ok?
  {
    var row := FindByEmailWithPassword(s.users.table, dto.email).value;
    assert row.isActive;
  }

  /** The user service only writes user keys, so none of its operations
      can revoke a token or lift a revocation. */
  lemma UserCreateKeepsBlacklist(s: UserStore, token: string, dto: CreateUserDto, newId: string, hash: string -> string)
    requires TableValid(s.table) && newId !in s.table.byId
    ensures Blacklisted(Create(s, dto, newId, hash).next.cache, token) == Blacklisted(s.cache, token)
  {
    NamespacesDisjoint(token, newId);
    NamespacesDisjoint(token, dto.email);
  }

  lemma UserLookupsKeepBlacklist(s: UserStore, token: string, id: string, email: string)
    requires TableValid(s.table)
    ensures Blacklisted(FindById(s, id).next.cache, token) == Blacklisted(s.cache, token)
    ensures Blacklisted(FindByEmail(s, email).next.cache, token) == Blacklisted(s.cache, token)
  {
    NamespacesDisjoint(token, id);
    NamespacesDisjoint(token, email);
    if email in s.table.byEmail {
      NamespacesDisjoint(token, s.table.byEmail[email]);
    }
  }

  lemma UserUpdateKeepsBlacklist(s: UserStore, token: string, id: string, update: UpdateUserDto)
    requires TableValid(s.table)
    ensures Blacklisted(Update(s, id, update).next.cache, token) == Blacklisted(s.cache, token)
  {
    NamespacesDisjoint(token, id);
    if id in s.table.byId {
      NamespacesDisjoint(token, s.table.byId[id].email);
    }
  }

  lemma UserDeleteKeepsBlacklist(s: UserStore, token: string, id: string)
    requires TableValid(s.table)
    ensures Blacklisted(Delete(s, id).next.cache, token) == Blacklisted(s.cache, token)
  {
    NamespacesDisjoint(token, id);
    if id in s.table.byId {
      NamespacesDisjoint(token, s.table.byId[id].email);
    }
  }

  /** With a coherent user cache, registration is refused exactly when the
      e-mail address is already taken, and otherwise always succeeds. */
  lemma RegisterConflictsExactlyWhenEmailTaken(s: AuthState, dto: RegisterDto, cfg: Config, now: int,
                                               newId: string, nextToken: string, hash: string -> string)
    requires AuthValid(s) && Coherent(s.users) && newId !in s.users.table.byId && nextToken !in s.tokens
    ensures var r := Register(s, dto, cfg, now, newId, nextToken, hash);
      && (r.result.Ok? <==> !EmailTaken(s.users.table, dto.email))
      && (r.result.Err? ==> r.result.error == Conflict(USER_EXISTS))
  {
    FindByEmailAgreesWithTable(s.users, dto.email);
  }
}

=== FILE: user_cache_coherence.dfy ===
/** Cache-aside coherence of the user service: every user entry in the cache
    is the password-free image of the row the table holds now.

    Ids are generated by the database (cuid/uuid) and contain no colon.
    Only such ids are covered: the id key of "email:" + e is the e-mail key
    of e, so an id with a colon could alias an e-mail entry. */
module UserCacheCoherence {
  import opened Outcomes
  import opened CacheKeys
  import opened CacheService
  import opened UsersService

  ghost predicate Coherent(s: UserStore) {
    && (forall id :: ':' !in id && UserKey(id) in s.cache.entries ==>
          id in s.table.byId
          && s.cache.entries[UserKey(id)].value == CachedUser(Public(s.table.byId[id])))
    && (forall e :: EmailKey(e) in s.cache.entries ==>
          e in s.table.byEmail && s.table.byEmail[e] in s.table.byId
          && s.cache.entries[EmailKey(e)].value == CachedUser(Public(s.table.byId[s.table.byEmail[e]])))
  }

  lemma NoIdKeyIsEmailKey()
    ensures forall id, e :: ':' !in id ==> UserKey(id) != EmailKey(e)
  {
    forall id, e | ':' !in id
      ensures UserKey(id) != EmailKey(e)
    {
      ColonFreeIdKeyIsNotEmailKey(id, e);
    }
  }

  /** With a coherent cache, a lookup by id answers exactly what the table
      says, whether it hits or misses, and the cache stays coherent. */
  lemma FindByIdAgreesWithTable(s: UserStore, id: string)
    requires TableValid(s.table) && Coherent(s) && ':' !in id
    ensures FindById(s, id).result ==
      (if id in s.table.byId then Ok(CachedUser(Public(s.table.byId[id])))
       else Err(NotFound(USER_NOT_FOUND)))
    ensures Coherent(FindById(s, id).next)
  {
    NoIdKeyIsEmailKey();
    KeyInjectivity();
  }

  /** With a coherent cache, a lookup by e-mail answers exactly what the
      table says, and the cache stays coherent. */
  lemma FindByEmailAgreesWithTable(s: UserStore, email: string)
    requires TableValid(s.table) && Coherent(s)
    ensures FindByEmail(s, email).result ==
      (if EmailTaken(s.table, email)
       then Ok(Some(CachedUser(Public(FindByEmailWithPassword(s.table, email).value))))
       else Ok(None))
    ensures Coherent(FindByEmail(s, email).next)
  {
    NoIdKeyIsEmailKey();
    KeyInjectivity();
  }

  lemma KeyInjectivity()
    ensures forall a, b :: UserKey(a) == UserKey(b) ==> a == b
    ensures forall a, b :: EmailKey(a) == EmailKey(b) ==> a == b
  {
    forall a, b ensures UserKey(a) == UserKey(b) ==> a == b {
      KeyBuildersInjective(a, b);
    }
    forall a, b ensures EmailKey(a) == EmailKey(b) ==> a == b {
      KeyBuildersInjective(a, b);
    }
  }

  /** Creating a user keeps the cache coherent, even while the cache is
      unreachable: no entry can exist yet for a new id or a new address. */
  lemma CreateKeepsCacheCoherent(s: UserStore, dto: CreateUserDto, newId: string, hash: string -> string)
    requires TableValid(s.table) && Coherent(s) && newId !in s.table.byId && ':' !in newId
    ensures Coherent(Create(s, dto, newId, hash).next)
  {
    if !EmailTaken(s.table, dto.email) {
      var n := Create(s, dto, newId, hash).next;
      assert n.table.byEmail == s.table.byEmail[dto.email := newId];
      assert dto.email !in s.table.byEmail;
      var row := UserRow(newId, dto.email, hash(dto.password), dto.name, dto.role.GetOr(USER), true);
      assert n.table.byId == s.table.byId[newId := row];
      AgreeOutside(s, n, UserKey(newId), EmailKey(dto.email));
      CreateKeepsIdEntries(s, n, dto.email, newId);
      CreateKeepsEmailEntries(s, n, dto.email, newId);
    }
  }

  /** The cache entries of `n` agree with those of `s` except at the two
      keys `Create` writes. */
  ghost predicate SameOutside(s: UserStore, n: UserStore, k1: string, k2: string) {
    forall k :: k != k1 && k != k2 ==>
      (k in n.cache.entries <==> k in s.cache.entries)
      && (k in n.cache.entries ==> n.cache.entries[k] == s.cache.entries[k])
  }

  lemma AgreeOutside(s: UserStore, n: UserStore, k1: string, k2: string)
    requires n.cache.entries - {k1, k2} == s.cache.entries - {k1, k2}
    ensures SameOutside(s, n, k1, k2)
  {
    var written := {k1, k2};
    forall k | k != k1 && k != k2
      ensures (k in n.cache.entries <==> k in s.cache.entries)
      ensures k in n.cache.entries ==> n.cache.entries[k] == s.cache.entries[k]
    {
      assert k in n.cache.entries <==> k in n.cache.entries - written;
      assert k in s.cache.entries <==> k in s.cache.entries - written;
    }
  }

  /** The id-key half of `CreateKeepsCacheCoherent`, for the state `n`
      that inserting the row `newId` with address `email` produces. */
  lemma CreateKeepsIdEntries(s: UserStore, n: UserStore, email: string, newId: string)
    requires Coherent(s) && newId !in s.table.byId && ':' !in newId
    requires n.table.byId.Keys == s.table.byId.Keys + {newId}
    requires forall id :: id in s.table.byId ==> n.table.byId[id] == s.table.byId[id]
    requires SameOutside(s, n, UserKey(newId), EmailKey(email))
    requires UserKey(newId) in n.cache.entries ==>
      n.cache.entries[UserKey(newId)].value == CachedUser(Public(n.table.byId[newId]))
    ensures forall id :: ':' !in id && UserKey(id) in n.cache.entries ==>
      id in n.table.byId && n.cache.entries[UserKey(id)].value == CachedUser(Public(n.table.byId[id]))
  {
    forall id | ':' !in id && UserKey(id) in n.cache.entries
      ensures id in n.table.byId && n.cache.entries[UserKey(id)].value == CachedUser(Public(n.table.byId[id]))
    {
      ColonFreeIdKeyIsNotEmailKey(id, email);
      KeyBuildersInjective(id, newId);
    }
  }

  /** The e-mail-key half of `CreateKeepsCacheCoherent`. */
  lemma CreateKeepsEmailEntries(s: UserStore, n: UserStore, email: string, newId: string)
    requires Coherent(s) && newId !in s.table.byId && ':' !in newId && email !in s.table.byEmail
    requires n.table.byId.Keys == s.table.byId.Keys + {newId}
    requires forall id :: id in s.table.byId ==> n.table.byId[id] == s.table.byId[id]
    requires n.table.byEmail == s.table.byEmail[email := newId]
    requires SameOutside(s, n, UserKey(newId), EmailKey(email))
    requires EmailKey(email) in n.cache.entries ==>
      n.cache.entries[EmailKey(email)].value == CachedUser(Public(n.table.byId[newId]))
    ensures forall e :: EmailKey(e) in n.cache.entries ==>
      e in n.table.byEmail && n.table.byEmail[e] in n.table.byId
      && n.cache.entries[EmailKey(e)].value == CachedUser(Public(n.table.byId[n.table.byEmail[e]]))
  {
    forall e | EmailKey(e) in n.cache.entries
      ensures e in n.table.byEmail && n.table.byEmail[e] in n.table.byId
        && n.cache.entries[EmailKey(e)].value == CachedUser(Public(n.table.byId[n.table.byEmail[e]]))
    {
      ColonFreeIdKeyIsNotEmailKey(newId, e);
      KeyBuildersInjective(e, email);
    }
  }

  /** Updating a user keeps a reachable cache coherent. */
  lemma UpdateKeepsCacheCoherent(s: UserStore, id: string, dto: UpdateUserDto)
    requires TableValid(s.table) && Coherent(s) && s.cache.available && ':' !in id
    ensures Coherent(Update(s, id, dto).next)
  {
    if id in s.table.byId {
      var n := Update(s, id, dto).next;
      var email := s.table.byId[id].email;
      var user := CachedUser(Public(n.table.byId[id]));
      NoIdKeyIsEmailKey();
      KeyInjectivity();
      var written := {UserKey(id), EmailKey(email)};
      assert n.cache.entries - written == s.cache.entries - written;
      assert n.cache.entries[UserKey(id)].value == user && n.cache.entries[EmailKey(email)].value == user;
      forall i | ':' !in i && UserKey(i) in n.cache.entries
        ensures i in n.table.byId && n.cache.entries[UserKey(i)].value == CachedUser(Public(n.table.byId[i]))
      {
        if UserKey(i) !in written {
          assert UserKey(i) in s.cache.entries - written;
        }
      }
      forall e | EmailKey(e) in n.cache.entries
        ensures e in n.table.byEmail && n.table.byEmail[e] in n.table.byId
          && n.cache.entries[EmailKey(e)].value == CachedUser(Public(n.table.byId[n.table.byEmail[e]]))
      {
        if EmailKey(e) !in written {
          assert EmailKey(e) in s.cache.entries - written;
        }
      }
    }
  }

  /** Deleting a user keeps a reachable cache coherent. */
  lemma DeleteKeepsCacheCoherent(s: UserStore, id: string)
    requires TableValid(s.table) && Coherent(s) && s.cache.available
    ensures Coherent(Delete(s, id).next)
  {
    if id in s.table.byId {
      var n := Delete(s, id).next;
      var email := s.table.byId[id].email;
      var removed := {UserKey(id), EmailKey(email)};
      assert n.cache.entries - removed == s.cache.entries - removed;
      assert UserKey(id) !in n.cache.entries && EmailKey(email) !in n.cache.entries;
      forall i | ':' !in i && UserKey(i) in n.cache.entries
        ensures i in n.table.byId && n.cache.entries[UserKey(i)].value == CachedUser(Public(n.table.byId[i]))
      {
        ColonFreeIdKeyIsNotEmailKey(i, email);
        assert UserKey(i) in s.cache.entries - removed;
        assert n.cache.entries[UserKey(i)] == s.cache.entries[UserKey(i)];
      }
      forall e | EmailKey(e) in n.cache.entries
        ensures e in n.table.byEmail && n.table.byEmail[e] in n.table.byId
          && n.cache.entries[EmailKey(e)].value == CachedUser(Public(n.table.byId[n.table.byEmail[e]]))
      {
        assert EmailKey(e) in s.cache.entries - removed;
        assert n.cache.entries[EmailKey(e)] == s.cache.entries[EmailKey(e)];
        assert e != email;
        assert s.table.byId[s.table.byEmail[e]].email == e;
      }
    }
  }

  /** Cache errors are swallowed, so an update made while the cache is
      unreachable leaves the old entry behind; once the cache is back, a
      lookup by id returns the user as it was before the update. */
  lemma UpdateDuringOutageServesStaleUser(s: UserStore, id: string, dto: UpdateUserDto)
    requires TableValid(s.table) && Coherent(s) && ':' !in id
    requires !s.cache.available && UserKey(id) in s.cache.entries
    requires Apply(s.table.byId[id], dto) != s.table.byId[id]
    ensures var after := Update(s, id, dto).next;
            var back := after.(cache := after.cache.(available := true));
            && FindById(back, id).result == Ok(CachedUser(Public(s.table.byId[id])))
            && FindById(back, id).result != Ok(CachedUser(Public(after.table.byId[id])))
            && !Coherent(after)
  {
    var row := s.table.byId[id];
    assert Public(Apply(row, dto)) != Public(row) by {
      if Apply(row, dto).name == row.name {
        assert Apply(row, dto).isActive != row.isActive;
      }
    }
  }
}

=== FILE: users_service.dfy ===
/** The user service: a user table with a unique e-mail index, read through
    the cache.  The same cache also holds the refresh-token blacklist, so its
    values are either a flag or a user without password. */
module UsersService {
  import opened Outcomes
  import opened CacheKeys
  import opened CacheService

  datatype Role = USER | ADMIN

  /** A row of the user table, password hash included. */
  datatype UserRow = UserRow(id: string, email: string, password: string,
                             name: Option<string>, role: Role, isActive: bool)

  /** A user as returned to callers and stored in the cache: no password. */
  datatype PublicUser = PublicUser(id: string, email: string, name: Option<string>,
                                   role: Role, isActive: bool)

  function Public(u: UserRow): (r: PublicUser) {
    PublicUser(u.id, u.email, u.name, u.role, u.isActive)
  }

  /** The values the application keeps in its cache. */
  datatype CachedValue = Flag(flag: bool) | CachedUser(user: PublicUser)

  /** JavaScript truthiness of a cached value, as checked by `if (cached)`. */
  predicate Truthy(v: CachedValue) {
    match v
    case Flag(b) => b
    case CachedUser(_) => true
  }

  type AppCache = Cache<CachedValue>

  /** The user table: rows by id, and the unique index on e-mail. */
  datatype UserTable = UserTable(byId: map<string, UserRow>, byEmail: map<string, string>)

  /** Rows are stored under their own id and the e-mail index is exact. */
  predicate TableValid(t: UserTable) {
    && (forall id :: id in t.byId ==>
          t.byId[id].id == id && t.byId[id].email in t.byEmail && t.byEmail[t.byId[id].email] == id)
    && (forall e :: e in t.byEmail ==> t.byEmail[e] in t.byId && t.byId[t.byEmail[e]].email == e)
  }

  /** Some row of the table has this e-mail address. */
  predicate EmailTaken(t: UserTable, email: string) {
    exists id :: id in t.byId && t.byId[id].email == email
  }

  datatype UserStore = UserStore(table: UserTable, cache: AppCache)

  datatype CreateUserDto = CreateUserDto(email: string, password: string,
                                         name: Option<string>, role: Option<Role>)

  /** The update DTO has no e-mail field: an update cannot change it. */
  datatype UpdateUserDto = UpdateUserDto(name: Option<string>, isActive: Option<bool>)

  const USER_TTL_MS: int := USER_TTL * 1000
  const USER_BY_EMAIL_TTL_MS: int := USER_BY_EMAIL_TTL * 1000

  const USER_EXISTS: string := "User with this email already exists"
  const USER_NOT_FOUND: string := "User not found"

  /** Looks a row up by e-mail in the table, never touching the cache. */
  function FindByEmailWithPassword(t: UserTable, email: string): (r: Option<UserRow>)
    requires TableValid(t)
    ensures r.Some? <==> EmailTaken(t, email)
    ensures r.Some? ==> r.value.id in t.byId && t.byId[r.value.id] == r.value && r.value.email == email
  {
    if email in t.byEmail then Some(t.byId[t.byEmail[email]]) else None
  }

  /** Inserts a user with the hashed password, then caches the password-free
      user under its id key and its e-mail key.  `newId` is the id the
      database generates and `hash` the password hashing function. */
  function Create(s: UserStore, dto: CreateUserDto, newId: string, hash: string -> string): (r: Step<UserStore, PublicUser>)
    requires TableValid(s.table) && newId !in s.table.byId
    ensures r.next.cache.available == s.cache.available && r.next.cache.listsKeys == s.cache.listsKeys
    ensures !s.cache.available ==> r.next.cache == s.cache
    ensures EmailTaken(s.table, dto.email) ==> r == Step(s, Err(Conflict(USER_EXISTS)))
    ensures !EmailTaken(s.table, dto.email) ==>
      var row := UserRow(newId, dto.email, hash(dto.password), dto.name, dto.role.GetOr(USER), true);
      && r.result == Ok(Public(row))
      && r.next.table.byId == s.table.byId[newId := row]
      && TableValid(r.next.table)
      && (s.cache.available ==>
            Get(r.next.cache, UserKey(newId)) == Some(CachedUser(Public(row)))
            && Get(r.next.cache, EmailKey(dto.email)) == Some(CachedUser(Public(row))))
      && r.next.cache.entries - {UserKey(newId), EmailKey(dto.email)}
         == s.cache.entries - {UserKey(newId), EmailKey(dto.email)}
  {
    if dto.email in s.table.byEmail then
      Step(s, Err(Conflict(USER_EXISTS)))
    else
      var row := UserRow(newId, dto.email, hash(dto.password), dto.name, dto.role.GetOr(USER), true);
      var table := UserTable(s.table.byId[newId := row], s.table.byEmail[dto.email := newId]);
      var user := Public(row);
      var c1 := Set(s.cache, UserKey(newId), CachedUser(user), Some(USER_TTL_MS));
      var c2 := Set(c1, EmailKey(dto.email), CachedUser(user), Some(USER_BY_EMAIL_TTL_MS));
      Step(UserStore(table, c2), Ok(user))
  }

  /** Cache-aside lookup by id: a truthy cached value is returned as is,
      without reading the table; on a miss the table is read, an absent
      user is NotFound, and a present one is cached and returned. */
  function FindById(s: UserStore, id: string): (r: Step<UserStore, CachedValue>)
    ensures var hit := Get(s.cache, UserKey(id));
      && (hit.Some? && Truthy(hit.value) ==> r == Step(s, Ok(hit.value)))
      && (!(hit.Some? && Truthy(hit.value)) && id !in s.table.byId ==>
            r == Step(s, Err(NotFound(USER_NOT_FOUND))))
      && (!(hit.Some? && Truthy(hit.value)) && id in s.table.byId ==>
            && r.result == Ok(CachedUser(Public(s.table.byId[id])))
            && r.next == s.(cache := Set(s.cache, UserKey(id), CachedUser(Public(s.table.byId[id])), Some(USER_TTL_MS))))
  {
    var hit := Get(s.cache, UserKey(id));
    if hit.Some? && Truthy(hit.value) then
      Step(s, Ok(hit.value))
    else if id !in s.table.byId then
      Step(s, Err(NotFound(USER_NOT_FOUND)))
    else
      var user := CachedUser(Public(s.table.byId[id]));
      Step(s.(cache := Set(s.cache, UserKey(id), user, Some(USER_TTL_MS))), Ok(user))
  }

  /** Cache-aside lookup by e-mail: like `FindById`, except that an unknown
      address yields no user (null) instead of an error, and nothing is
      written to the cache for it. */
  function FindByEmail(s: UserStore, email: string): (r: Step<UserStore, Option<CachedValue>>)
    requires TableValid(s.table)
    ensures var hit := Get(s.cache, EmailKey(email));
      && (hit.Some? && Truthy(hit.value) ==> r == Step(s, Ok(Some(hit.value))))
      && (!(hit.Some? && Truthy(hit.value)) && !EmailTaken(s.table, email) ==> r == Step(s, Ok(None)))
      && (!(hit.Some? && Truthy(hit.value)) && EmailTaken(s.table, email) ==>
            var row := FindByEmailWithPassword(s.table, email).value;
            && r.result == Ok(Some(CachedUser(Public(row))))
            && r.next == s.(cache := Set(s.cache, EmailKey(email), CachedUser(Public(row)), Some(USER_BY_EMAIL_TTL_MS))))
  {
    var hit := Get(s.cache, EmailKey(email));
    if hit.Some? && Truthy(hit.value) then
      Step(s, Ok(Some(hit.value)))
    else
      match FindByEmailWithPassword(s.table, email)
      case None => Step(s, Ok(None))
      case Some(row) =>
        var user := CachedUser(Public(row));
        Step(s.(cache := Set(s.cache, EmailKey(email), user, Some(USER_BY_EMAIL_TTL_MS))), Ok(Some(user)))
  }

  /** The row after applying an update: only the fields present change. */
  function Apply(row: UserRow, dto: UpdateUserDto): (r: UserRow) {
    row.(name := if dto.name.Some? then dto.name else row.name,
         isActive := dto.isActive.GetOr(row.isActive))
  }

  /** Updates a user, then drops both cache keys and writes the updated
      user back under both. */
  function Update(s: UserStore, id: string, dto: UpdateUserDto): (r: Step<UserStore, PublicUser>)
    requires TableValid(s.table)
    ensures r.next.cache.available == s.cache.available && r.next.cache.listsKeys == s.cache.listsKeys
    ensures !s.cache.available ==> r.next.cache == s.cache
    ensures id !in s.table.byId ==> r == Step(s, Err(NotFound(USER_NOT_FOUND)))
    ensures id in s.table.byId ==>
      var old_ := s.table.byId[id];
      var new_ := Apply(old_, dto);
      && r.result == Ok(Public(new_))
      && new_.email == old_.email && new_.id == id && new_.password == old_.password
      && r.next.table == s.table.(byId := s.table.byId[id := new_])
      && TableValid(r.next.table)
      && (s.cache.available ==>
            Get(r.next.cache, UserKey(id)) == Some(CachedUser(Public(new_)))
            && Get(r.next.cache, EmailKey(old_.email)) == Some(CachedUser(Public(new_))))
      && r.next.cache.entries - {UserKey(id), EmailKey(old_.email)}
         == s.cache.entries - {UserKey(id), EmailKey(old_.email)}
  {
    if id !in s.table.byId then
      Step(s, Err(NotFound(USER_NOT_FOUND)))
    else
      var row := s.table.byId[id];
      var updated := Apply(row, dto);
      var table := s.table.(byId := s.table.byId[id := updated]);
      var user := CachedUser(Public(updated));
      var c1 := Del(s.cache, UserKey(id));
      var c2 := Del(c1, EmailKey(row.email));
      var c3 := Set(c2, UserKey(id), user, Some(USER_TTL_MS));
      var c4 := Set(c3, EmailKey(updated.email), user, Some(USER_BY_EMAIL_TTL_MS));
      Step(UserStore(table, c4), Ok(Public(updated)))
  }

  /** Deletes a user's row and both of its cache keys. */
  function Delete(s: UserStore, id: string): (r: Step<UserStore, ()>)
    requires TableValid(s.table)
    ensures r.next.cache.available == s.cache.available && r.next.cache.listsKeys == s.cache.listsKeys
    ensures !s.cache.available ==> r.next.cache == s.cache
    ensures id !in s.table.byId ==> r == Step(s, Err(NotFound(USER_NOT_FOUND)))
    ensures id in s.table.byId ==>
      var email := s.table.byId[id].email;
      && r.result == Ok(())
      && r.next.table.byId == s.table.byId - {id}
      && !EmailTaken(r.next.table, email)
      && TableValid(r.next.table)
      && (s.cache.available ==>
            Get(r.next.cache, UserKey(id)) == None && Get(r.next.cache, EmailKey(email)) == None)
      && r.next.cache.entries - {UserKey(id), EmailKey(email)}
         == s.cache.entries - {UserKey(id), EmailKey(email)}
  {
    if id !in s.table.byId then
      Step(s, Err(NotFound(USER_NOT_FOUND)))
    else
      var email := s.table.byId[id].email;
      var table := UserTable(s.table.byId - {id}, s.table.byEmail - {email});
      var c1 := Del(s.cache, UserKey(id));
      var c2 := Del(c1, EmailKey(email));
      Step(UserStore(table, c2), Ok(()))
  }
}
